=== FILE: README.md ===
# Credit ledger of the referral bot, in Dafny

This project models the credit ledger behind a Telegram referral bot. Users
earn "stars" (integer credits) three ways:
- Tgrass webhook events: task rewards, and subscription rewards paid at most
  once per 24 hours, with a flat bonus to the user's referrer.
- Promo codes.
- A referral link that records who brought whom.

Users can ask to withdraw part of their balance, which is debited at once.
An admin then approves or rejects the request, and a rejection refunds the
amount.

Two stores are modelled, each as an immutable value with one map per table:
- `bot.py`'s own SQLite schema (`BotLedger` and the modules built on it).
- The second schema in `database.py` (`DbStore` and the modules built on
  it): users with levels, tasks, task assignments, promo codes with a
  uses-left counter, and subscription watches.

Every handler and every database helper is a pure function from the old
state to the new state and the handler's reply. The clock is an integer
number of seconds passed in as `now`, and `DAY = 86400`. AUTOINCREMENT keys
come from counters that only grow.

Modules:
- `Wrappers`: `Option` and Python truthiness of an optional integer.
- `Text`: the ASCII string helpers the handlers use: `isdigit`, decimal
  rendering, `upper`/`lower`, `strip`.
- `Sums`: sums over a map's values, used for total balances.
- `BotLedger`: tables, `add_user`, balances, referrers.
- `BotStart`: `/start` and the referral-link parameter.
- `BotPromo`: `/createpromo` and promo activation.
- `BotWebhook`: `tgrass_webhook`.
- `BotWithdraw`: the withdraw request, `/approve`, `/reject`.
- `DbStore`, `DbAssignments`, `DbPromo`, `DbWatches`, `DbStats`: the
  `database.py` helpers.

Each operation has a partner property:
- Totals move by exactly the credited amount.
- Integrity is kept: ids stay below their counters, the code index matches
  the promo table, and assignment pairs are unique.
- Round trips: referral link → parsed referrer, and create → find or redeem.
- Idempotence: event replay, second activation, second reject.
- First-referrer-wins.
- Money conservation across withdraw, reject and approve.

## Model

| member | source | states |
|---|---|---|
| BotLedger.Init | bot.py:58-153 | A fresh database has no users, has exactly the configured auto-admins, and satisfies the integrity invariant. This is the first start only: on a restart `init_db` adds the auto-admins to those already stored and keeps every other row. |
| BotLedger.AddUser | bot.py:155-183 | A new user starts at balance 0 with the given referrer, and gets a referral row exactly when the referrer is non-zero and not the user. An existing user keeps balance and first-seen time, and takes the new username. Its referrer changes iff it was null and the new one is a non-zero other id. No other table changes. |
| BotLedger.GetBalance | bot.py:185-191 | An unknown user has balance 0. |
| BotLedger.ChangeBalance | bot.py:193-198 | The balance of a known user moves by exactly delta, with no floor. An unknown user stays unknown. Only balances differ afterwards: that user's username, first-seen time and referrer are kept. Every other user's row and every other table is unchanged. |
| BotLedger.GetReferredBy | bot.py:341-350 | Returns the stored referrer of a known user, and None for an unknown one. |
| BotLedger.AddUserTotal | bot.py:161-172 | Registering or refreshing a user never changes the sum of all balances. |
| BotLedger.ChangeBalanceTotal | bot.py:193-198 | The sum of all balances moves by delta when the user exists, else by 0. |
| BotLedger.ChangeBalanceCompose | bot.py:193-198 | Two changes equal one change by their sum. A change followed by its negation restores the ledger. |
| BotLedger.FirstReferrerWins | bot.py:174-179 | Once a user's referrer is set, no sequence of later add_user calls changes it. |
| BotLedger.AddUserValid | bot.py:155-183 | add_user preserves the ledger's integrity invariant. |
| BotLedger.ChangeBalanceValid | bot.py:193-198 | change_balance preserves the ledger's integrity invariant. |
| BotStart.RefArg | bot.py:449 | The referral-link parameter starts with `r` and has at least one more character. |
| BotStart.ParseStartArg | bot.py:378-379 | A referrer is found iff the first argument is `r` followed by a non-empty run of digits. The referrer is the decimal value of those digits, leading zeros included (`r007` gives 7). |
| BotStart.DisplayName | bot.py:381 | The stored name is the username if present, else the full name if present, else `user_<id>`: the same placeholder the webhook registers users under. |
| BotStart.Start | bot.py:373-381 | /start stores the display name. A new user gets the parsed referrer and balance 0. An existing user's balance is kept. |
| BotStart.RefArgRoundTrip | bot.py:449 | The parameter of a user's own referral link parses back to that user's id. |
| Text.ShowNatRoundTrip | bot.py:378-379 | Reading back the decimal text of a number gives the number. |
| Text.StripPadded | bot.py:621 | Strings that differ only in surrounding whitespace strip to the same text, as `str.strip` does. |
| Text.Strip | bot.py:621-623 | `str.strip()`: the result has no whitespace at either end, and is empty exactly when the input is all whitespace. |
| Text.StripUnpadded | bot.py:621-623 | A string with no whitespace at either end is its own `strip()`. |
| Text.StripExact | bot.py:621-623 | `strip()` returns exactly the core between leading and trailing whitespace. Every string splits this way, so this determines the result for every input. |
| Text.Upper | bot.py:259 | `str.upper()` on ASCII: the same length, with each character upper-cased on its own. |
| Text.Lower | bot.py:623 | `str.lower()` on ASCII: the same length, with each character lower-cased on its own. |
| BotStart.StartWithLink | bot.py:373-381 | A new user following a link is stored with that referrer. They get a referral row iff the referrer is non-zero and not themselves. |
| BotStart.RestartKeepsReferrer | bot.py:174-179 | Running /start again with any arguments never replaces a recorded referrer or changes the balance. |
| BotPromo.CreatePromo | bot.py:545-562 | A code is created iff the caller is an admin and the upper-cased code is not taken. It is then stored with 0 uses and expiry `now + days*DAY` under an id below the new counter. Only the promo table, the code index and the counter change. Refusals change nothing. |
| BotPromo.FindPromo | bot.py:256-262 | A code is found iff its upper-cased form is in the code index, and the id returned is the indexed one. |
| BotPromo.ActivatePromo | bot.py:264-298 | The four refusals come in source order: already activated, not found, limit reached, expired. Each is an iff and changes nothing. On success there is one more use and one activation record, and the amount is credited to the user only. The user keeps their username and referrer. No other table changes. |
| BotPromo.RedeemText | bot.py:529-541 | Stripped, upper-cased text with no matching code is "not found". Otherwise the text activates exactly the indexed code. |
| BotPromo.ActivatePromoValid | bot.py:283-288 | Activation preserves integrity. In particular each code's use counter equals its number of activation records. The counter never exceeds a non-negative limit, and stays 0 under a negative one. |
| BotPromo.RecordActivationValid | bot.py:283-287 | Counting one use and recording the activation together preserve integrity. |
| BotPromo.CreatePromoValid | bot.py:245-254 | Creating a code preserves integrity and uses an id no code had. |
| BotPromo.ActivateTwice | bot.py:268-270 | A second activation of the same code by the same user is refused and changes nothing. |
| BotPromo.CreatedCodeIsFound | bot.py:529-541 | After /createpromo, any user who types any spelling that strips and upper-cases to the code, at any later time, finds it. |
| BotWebhook.ParseKind | bot.py:621-627 | The type is task or subscription iff its stripped, lower-cased form is exactly that word. |
| BotWebhook.KnownKinds | bot.py:623-624 | `task` and `subscription`, in any letter case and with any surrounding whitespace, parse to their kinds. |
| BotWebhook.Authorized | bot.py:612-613 | A header is accepted iff a secret is configured and the header equals it. With no secret configured, no header is accepted. |
| BotWebhook.SecretAccepted | bot.py:611-614 | With a secret configured, a delivery that carries it is never refused as forbidden. |
| BotWebhook.EventKey | bot.py:621-626 | The key is the id stripped of surrounding whitespace. It is empty exactly when the id is all whitespace or empty, and the payload check then refuses the event. |
| BotWebhook.EventKeyIsCore | bot.py:621 | The key of an id is exactly its core, the text between leading and trailing whitespace. |
| BotWebhook.DistinctIdsAreDistinctEvents | bot.py:621-634 | After one event is handled, an event with a different id that was not logged is not a duplicate. |
| BotWebhook.RewardOf | bot.py:629-630 | A given reward is used as is. A missing one defaults to the configured task reward or subscription reward, by the event's type. |
| BotWebhook.SavedIsSeen | bot.py:300-316 | After `tgrass_save_event` the id is seen. Whether any other id is seen is unchanged. |
| BotWebhook.StampWindow | bot.py:318-339 | After a reward stamped at t, the user may be rewarded again at a later time iff 24 hours have passed. Other users' windows are unaffected. |
| BotWebhook.SaveEvent | bot.py:308-316 | An event id already logged keeps its first record. A new one is logged with user, type, reward and time. Nothing else changes. |
| BotWebhook.MarkDailySubReward | bot.py:329-339 | The user's stamp is set to now, after which a subscription reward is refused at the same time. |
| BotWebhook.BonusTarget | bot.py:654-656 | A bonus is due iff the user is known, has a non-zero stored referrer other than themselves, and the configured bonus is positive. The bonus then goes to that stored referrer. |
| BotWebhook.TaskStep | bot.py:640-643 | The task branch credits the reward and logs the event with it. Nothing else changes. |
| BotWebhook.PaySubscription | bot.py:650-652 | The paid subscription branch credits the reward, stamps now, and logs the event with the reward. |
| BotWebhook.SubscriptionStep | bot.py:645-659 | Inside 24 hours the event is logged with reward 0, the reply is cooldown, and nothing else changes. Otherwise: the user's balance rises by the reward if the user is known, the stamp becomes now, and the event is logged with the reward. The bonus target's balance rises by the flat bonus if it is a known user. No other balance moves, no user's username or referrer changes, and no table but users, events and stamps changes. |
| BotWebhook.Webhook | bot.py:611-659 | The reply is forbidden iff the secret is wrong or unset. It is bad payload iff the payload is malformed, and duplicate iff the event id is already logged; these three change nothing. Task-ok iff the event is fresh and of type task. Accepted events add exactly their own id to the log. No user disappears, and no table but users, events and stamps ever changes. |
| BotWebhook.Accept | bot.py:636-659 | A fresh event replies task-ok iff its type is task, and logs exactly its id. The user table gains exactly the event's user. No table but users, events and stamps changes. |
| BotWebhook.ReplayIsDuplicate | bot.py:633-634 | Delivering the same event again, at any time, is a duplicate and changes nothing. |
| BotWebhook.PaddedReplayIsDuplicate | bot.py:621-634 | A redelivery whose id differs only in surrounding whitespace is the same event: a duplicate, with no change. |
| BotWebhook.PlaceholderKeepsBalances | bot.py:636-637 | Registering the webhook's user changes no balance, no referrer and no other user's row. |
| BotWebhook.TaskEventCredits | bot.py:640-643 | A fresh task event credits its reward (or the default) to that user alone and logs it. |
| BotWebhook.AcceptTask | bot.py:636-643 | The task branch credits exactly the reward to the user alone and logs it. |
| BotWebhook.WebhookAccepts | bot.py:611-637 | A fresh delivery is handled with its stripped id, user, parsed type and reward (given or default). |
| BotWebhook.SubscriptionInCooldown | bot.py:645-648 | Inside the 24-hour window a subscription event pays no one and keeps the stamp, but is logged with reward 0. |
| BotWebhook.AcceptCooldown | bot.py:645-648 | The same as SubscriptionInCooldown, for an already-validated event. |
| BotWebhook.SubscriptionRewarded | bot.py:650-657 | Outside the window the user gets the reward, the stamp becomes now, and the event is logged. The referrer (if eligible and known) gets exactly the flat bonus. No one else changes. |
| BotWebhook.AcceptRewarded | bot.py:650-657 | The same as SubscriptionRewarded, for an already-validated event. |
| BotWebhook.PaidSubscriptionTotal | bot.py:650-657 | A paid subscription moves the sum of all balances by the reward (if the user is known) plus the bonus (if its target is a known user). |
| BotWebhook.PaidBalances | bot.py:650-657 | Crediting the reward to the user and then the bonus to a distinct target moves exactly those two balances, each only for a known user, and the total by what was credited. |
| BotWebhook.WebhookTotal | bot.py:611-659 | The sum of all balances moves by exactly what the reply accounts for: the task reward, the subscription reward plus a bonus paid to a known referrer, or nothing. |
| BotWebhook.AcceptTotal | bot.py:636-659 | The same accounting for an already-validated event. |
| BotWebhook.WebhookValid | bot.py:611-659 | Every delivery preserves the ledger's integrity. |
| BotWebhook.ValidFrame | bot.py:611-659 | Integrity survives any change confined to balances, the event log and the stamps that keeps every known user known. |
| BotWebhook.DefaultConfigRefusesAll | bot.py:23 | With the default (empty) secret every delivery is forbidden and changes nothing. |
| BotWebhook.CooldownWindow | bot.py:318-327 | An accepted subscription event is refused iff the user's stamp is less than 24 hours old; otherwise it is paid. |
| BotWebhook.SubscriptionTrace | bot.py:645-652 | A paid delivery sets the stamp and credits the reward. A refused one keeps both and logs reward 0. |
| BotWebhook.DailyCooldownScenario | bot.py:645-652 | For one user: paid at t, refused at t+1h (logged with 0), paid again at t+25h. |
| BotWithdraw.RequestWithdraw | bot.py:488-527 | The refusals come in source order: non-positive amount, then amount above balance, then daily limit reached. Each changes nothing. On success the amount is debited from that user alone, their other columns are kept, and a pending request is stored under the next id. No other table changes. |
| BotWithdraw.SetWithdrawStatus | bot.py:237-243 | An unknown id changes nothing. Otherwise only that request's status and admin change. |
| BotWithdraw.WithdrawsLast24h | bot.py:208-215 | The count of a user's recent requests is at most the number of requests stored. |
| BotWithdraw.NoRecentRequests | bot.py:208-215 | The count is 0 iff each of the user's requests is at least 24 hours old (any status). Other users' requests never count. |
| BotWithdraw.Reject | bot.py:576-601 | The refusals: not an admin, request not found, already processed (any status but pending). Each is an iff and changes nothing. On success the owner is refunded the amount, their other columns are kept, and the request becomes rejected. Only the users and withdraw tables change. |
| BotWithdraw.ApproveAsWritten | bot.py:564-574 | Refused iff the caller is not an admin. Otherwise the id is marked approved whatever its status, and no balance changes. Only the withdraw table changes. |
| BotWithdraw.Approve | bot.py:564-574 | The corrected approval: the same refusals as reject. Only a pending request becomes approved, and no balance changes. Only the withdraw table changes. |
| BotWithdraw.RequestKeepsHoldings | bot.py:523-524 | A request moves money from the balance into the request: every user's balance plus outstanding requests stays the same. |
| BotWithdraw.RejectKeepsHoldings | bot.py:598-599 | A rejection moves the amount back to the balance: holdings stay the same. |
| BotWithdraw.ApproveKeepsHoldings | bot.py:564-574 | The corrected approval leaves every user's holdings unchanged. |
| BotWithdraw.RejectOnce | bot.py:594-596 | A request is refunded at most once: a second reject finds it already processed. |
| BotWithdraw.NoRefundAfterApprove | bot.py:594-596 | After a (corrected) approval, reject is refused, so no refund follows an approval. |
| BotWithdraw.DailyCapRespected | bot.py:519-521 | An accepted request raises the user's 24-hour count by one, to at most the daily maximum. |
| BotWithdraw.RequestWithdrawValid | bot.py:217-227 | A withdraw request preserves integrity: fresh id below the counter, owner known. |
| BotWithdraw.RejectValid | bot.py:576-601 | A rejection preserves integrity. |
| BotWithdraw.ApproveValid | bot.py:564-574 | Both approvals preserve integrity. |
| BotWithdraw.ApproveAfterRejectAsWritten | bot.py:564-574 | As written: reject then approve leaves the request approved with the refund kept, so the owner's holdings grow by the amount. |
| BotWithdraw.ApproveAfterRejectRefused | bot.py:594-596 | Corrected: an approve after a reject is refused and changes nothing. |
| DbStore.Empty | database.py:16-91 | The empty store satisfies the integrity invariant. |
| DbStore.AddUserIfNotExists | database.py:94-109 | A new user gets balance 0, level 1 and the given referrer. An existing user keeps balance, level and creation time. A truthy referrer fills only a NULL referrer. No other row or table changes. |
| DbStore.IncrementBalance | database.py:121-126 | A known user's balance moves by delta with no floor. An unknown user is not created. Nothing else changes. |
| DbStore.UpdateLevel | database.py:129-134 | Only the level of a known user changes. |
| DbStore.CreateTask | database.py:137-155 | The task is stored under the next id, which is returned. Nothing else changes. |
| DbStore.ReferrerSticks | database.py:104-108 | Once set, a user's referrer, balance and level survive any sequence of add_user_if_not_exists calls. |
| DbStore.AddUserKeepsTotal | database.py:94-109 | Registering a user never changes the sum of balances. |
| DbStore.IncrementBalanceTotal | database.py:121-126 | The sum of balances moves by delta for a known user, else not at all. |
| DbStore.SettersCompose | database.py:121-134 | Increments add up, the last level set wins, and the two setters commute. |
| DbStore.StoreOpsValid | database.py:94-155 | The user and task operations preserve integrity, and a new task id was not in use. |
| DbAssignments.CreateAssignment | database.py:179-189 | An insert happens iff no assignment exists for the (task, user) pair. It is stored under the next id with no proof or comment. For an existing pair nothing changes. |
| DbAssignments.UpdateAssignmentStatus | database.py:213-224 | Sets status and comment, keeps the old proof unless a new one is given, and stamps the update time. The row's pair and creation time stay. An unknown id changes nothing. |
| DbAssignments.CreateAssignmentValid | database.py:55 | Creating an assignment keeps (task, user) pairs unique. |
| DbAssignments.UpdateAssignmentValid | database.py:213-224 | Status updates keep (task, user) pairs unique. |
| DbAssignments.SecondCreateKeepsStatus | database.py:179-189 | A second create for the same pair inserts nothing, and the status already reached stays. |
| DbAssignments.ProofSurvives | database.py:218-219 | A recorded proof survives any sequence of updates that bring no new proof, whatever status and comment they set. |
| DbPromo.CreatePromocode | database.py:255-263 | The code is stored under its upper-cased key, replacing any previous row. Nothing else changes. |
| DbPromo.RedeemPromocode | database.py:266-291 | The refusals come in source order: not found, expired, no uses left. Each is an iff, changes nothing and credits 0. On success the reward is credited, a non-NULL counter drops by one, and nothing else changes. |
| DbPromo.RedeemIgnoresCase | database.py:266-273 | Two spellings with the same upper-case form redeem identically. |
| DbPromo.CreateReplaces | database.py:255-263 | The last create for a key wins, whatever spelling either call used. |
| DbPromo.CreatedCodeRedeems | database.py:255-291 | A code just created, unexpired and with uses left, redeems under any spelling and credits its reward. |
| DbPromo.SameUserTwice | database.py:266-291 | With no per-user record, the same user redeems an unlimited code twice and is credited twice. |
| DbPromo.CounterNeverOverruns | database.py:283-287 | A counter of n >= 0 uses allows at most n successes over any run of redemptions, and ends at n minus the successes. |
| DbPromo.PromoOpsValid | database.py:255-291 | The promo operations preserve the store's integrity. |
| DbWatches.ScheduleWatch | database.py:294-305 | The watch is stored under a fresh id (not in use, below the new counter), which is returned. Nothing else changes. |
| DbWatches.DeleteWatch | database.py:308-313 | The row is removed. An absent id changes nothing. |
| DbWatches.GetWatch | database.py:325-331 | A row is returned iff the id is present, and it is the stored row. |
| DbWatches.ListWatches | database.py:316-322 | The listing holds exactly the stored (id, row) pairs. |
| DbWatches.DeletedIsGone | database.py:308-331 | After a delete the id reads back as absent and is not listed. Every other id reads back as before. |
| DbWatches.ScheduleThenDelete | database.py:294-313 | A scheduled watch reads back as stored. Deleting it restores the table, and integrity is kept. |
| DbWatches.IdsNotReused | database.py:79-88 | A watch scheduled after a delete gets an id above every earlier id, never the deleted one. |
| DbStats.GetStats | database.py:334-344 | The counts are the number of users and tasks, and the balance sum is the sum of all balances (0 for no users). |
| DbStats.StatsAfterNewUser | database.py:94-109 | Registering a new user adds one to the user count and leaves the task count and the balance sum unchanged. |

## Left out

- The Telegram transport: inline keyboards, menus, message texts and callback routing (bot.py:352-486). Handler registration and polling (bot.py:661-707) are left out too. These are I/O. The model keeps the decisions behind them and reports each reply as a constructor.
- The text parsing of the withdraw message (`вывод <amount> <kind>`, bot.py:496-511) and of the admin arguments (bot.py:550-556, 569-572, 581-584). `RequestWithdraw`, `CreatePromo`, `Approve` and `Reject` take the already-parsed values. A malformed withdraw message, or a malformed `/approve` or `/reject` id, produces a format reply and changes no state.
- `/createpromo` with a non-numeric AMOUNT, MAXUSES or DAYS: `int()` at bot.py:554-556 runs before the `try` at bot.py:557. It raises `ValueError`, no reply is sent, and no state changes. The model has no outcome for this crash.
- The "awaiting withdraw / awaiting promo" flags in `context.user_data`. The model exposes the two branches as separate operations.
- `list_pending_withdraws` (bot.py:229-235): a read-only query used only to display requests.
- `is_admin` is modelled as membership in the `admins` set. The parsing of `AUTO_ADMINS` from the environment is left out: `Init` takes the set.
- The HTTP server and JSON decoding of the webhook, including the "bad json" reply. `Payload` holds the decoded fields: `userId` is `None` when the field is missing or not an integer. Python's `bool` counts as `int` in `isinstance`, and this is not modelled. The `int(reward)` conversion of a non-integer reward (and its exception) is not modelled either: a present reward is an integer.
- Timestamps are ISO strings in the source, compared as strings (`ts > since` in `withdraws_count_last_24h`, and `expires_at < now` in database.py). The model uses integer seconds and one `now` per call. The source reads `utcnow()` several times within one handler, and the model ignores those differences.
- Exceptions and rollback are not modelled. A failed insert of a promo code that already exists (bot.py:557-562) is modelled as the `CodeTaken` reply with no change.
- Integer width: ids, balances, amounts and rewards are unbounded integers in the model. SQLite's INTEGER is signed 64-bit, and Python's `sqlite3` raises `OverflowError` when it binds an `int` outside -2^63 .. 2^63-1. A sum that leaves that range in `balance = COALESCE(balance,0) + ?` is stored as a REAL. None of this is modelled. The members it affects are listed next. Every setter of database.py that binds an integer fails in the same way.
- BotStart.Start: with a referrer of 2^63 or more (`/start r9223372036854775808`), the INSERT at bot.py:162-165 raises and the user is not registered at all. The model stores the user with that referrer.
- BotStart.StartWithLink: allows any `nat` referrer, so it too states a registration that the source refuses, with an exception, above 2^63-1.
- BotWebhook.Webhook: a `reward` of 2^63 or more makes `change_balance` (bot.py:196, called at bot.py:641 and 650) raise after `add_user` at bot.py:637 has already committed. The event is never logged, so every redelivery fails the same way. The model credits and logs it. A `user_id` outside 64 bits raises in `add_user` before any change, and the model registers that user.
- BotLedger.ChangeBalance: a balance pushed past 2^63-1 becomes a REAL in SQLite. The model keeps the exact integer.
- BotPromo.CreatePromo: a DAYS value that takes `utcnow() + timedelta(days=…)` outside years 1 to 9999 raises `OverflowError` at bot.py:246. An AMOUNT or MAXUSES outside 64 bits fails to bind at bot.py:249-252. Both happen inside the `try` at bot.py:557-562, so the source sends the error reply and stores nothing. The model creates the code, with `now + days*DAY` as its expiry.
- DbStore.AddUserIfNotExists, DbStore.IncrementBalance, DbStore.UpdateLevel, DbStore.CreateTask: an id, delta, level or reward outside 64 bits fails to bind and the call raises with nothing stored. A balance pushed past 2^63-1 by `balance + ?` becomes a REAL. The model stores the exact integers.
- DbPromo.CreatePromocode, DbPromo.RedeemPromocode: a reward or use count outside 64 bits fails to bind, and a balance pushed past 2^63-1 becomes a REAL. The model stores and credits the exact integers.
- Concurrency is not modelled, including the race between `tgrass_seen_event` and `tgrass_save_event`. Each operation is one atomic transition.
- `str.upper`, `str.lower`, `str.strip` and `str.isdigit` are modelled on ASCII letters, ASCII whitespace and ASCII digits only. Python's Unicode rules are wider.
- A NULL username is modelled as the empty string, which the source's `or` chain also treats as absent.
- The return value of `create_assignment` is `cursor.lastrowid`. After an ignored insert that value is not a meaningful id. The model returns `None` instead.
- `create_task` stores `json.dumps(payload)`: the model keeps the payload as an already-serialised string.
- The read-only helpers of database.py: `get_user`, `list_tasks`, `get_task` and `get_assignment` are plain reads of a map. `get_assignment_by_task_user` is modelled as the predicate `HasPair`.
- The sponsor table helpers (database.py:227-252): they are not part of the credit ledger.
- `update_level` is a plain setter. Rules such as automatic tier upgrades, the scheduler that fires subscription watches and applies penalties, and membership checks do not appear in the code. The model follows the code and stores watches without firing them.
- BotLedger.GetBalance: states only the unknown-user case as a contract. Its value for a known user is used through `ChangeBalance`'s and the handlers' contracts.

## Findings

| source | as written | input that shows it | evidently intended | confidence | as-written member | corrected member |
|---|---|---|---|---|---|---|
| bot.py:564-574 | `/approve` marks any request id approved without reading its status | A pending request of amount a is rejected (refunded a), then `/approve` is sent for the same id. It ends approved with the refund kept, so the owner's balance plus outstanding requests grows by a. | Approve only pending requests, as `/reject` checks at bot.py:594-596 | not executed | BotWithdraw.ApproveAfterRejectAsWritten | BotWithdraw.Approve |

`BotWithdraw.ApproveAsWritten` models the handler as written. The lemma
`BotWithdraw.ApproveAfterRejectRefused` shows that the corrected `Approve`
refuses the same sequence. `BotWithdraw.ApproveKeepsHoldings` and
`BotWithdraw.NoRefundAfterApprove` show that no money appears or disappears
under it.

=== FILE: bot_ledger.dfy ===
/**
 * The bot's ledger database (the `referrals_v2` schema of bot.py) as an
 * immutable value: one map per table, keyed by the table's primary or
 * unique key. Every operation is a pure transition; time is an integer
 * number of seconds passed in as `now`.
 *
 * This module holds the tables, the user/referral store and the balance
 * operations; promo codes, the webhook and withdrawals build on it.
 */
module BotLedger {
  import opened Wrappers
  import Sums
  import Text

  /** 24 hours, in seconds. */
  const DAY: int := 86400

  datatype User = User(username: string, firstSeen: int, referredBy: Option<int>, balance: int)

  /** A row of `referrals`; the table is keyed by the referred user (`referred_id UNIQUE`). */
  datatype Referral = Referral(referrerId: int, ts: int)

  datatype Promo = Promo(code: string, amount: int, maxUses: int, usesCount: int, validUntil: int)

  datatype EventKind = TaskEvent | SubscriptionEvent

  /** A row of `tgrass_events`, keyed by its `event_id`. */
  datatype Event = Event(userId: int, kind: EventKind, reward: int, ts: int)

  datatype WithdrawStatus = Pending | Approved | Rejected

  datatype Withdraw = Withdraw(userId: int, amount: int, kind: string, status: WithdrawStatus, adminId: Option<int>, ts: int)

  datatype Ledger = Ledger(
    users: map<int, User>,
    referrals: map<int, Referral>,
    admins: set<int>,
    withdraws: map<int, Withdraw>,
    nextWithdrawId: int,
    promos: map<int, Promo>,
    promoIds: map<string, int>,        // the index behind `code TEXT UNIQUE`
    nextPromoId: int,
    activations: map<(int, int), int>, // (user, promo) -> activation time
    events: map<string, Event>,
    dailySubs: map<int, int>)          // user -> last subscription reward time

  /** The environment settings the handlers read. */
  datatype Config = Config(
    secret: string,
    defaultTaskReward: int,
    defaultSubReward: int,
    refBonusOnSub: int,
    maxWithdrawsPerDay: int)

  /** The settings used when the environment sets none (bot.py:23-33). */
  const DefaultConfig: Config := Config("", 2, 2, 5, 5)

  /** A transition's new state together with what the handler reports. */
  datatype Step<O> = Step(ledger: Ledger, outcome: O)

  /** A fresh database whose `admins` table holds the configured auto-admins. */
  function Init(autoAdmins: set<int>): (s: Ledger)
    ensures Valid(s)
    ensures s.admins == autoAdmins && s.users == map[]
  {
    Ledger(map[], map[], autoAdmins, map[], 1, map[], map[], 1, map[], map[], map[])
  }

  /** The activation records of one promo code. */
  function ActivationsOf(s: Ledger, promoId: int): set<(int, int)> {
    set a | a in s.activations && a.1 == promoId
  }

  /** A promo's counter agrees with its activation records and stays within its limit. */
  ghost predicate PromoCounted(s: Ledger, id: int)
    requires id in s.promos
  {
    var p := s.promos[id];
    && p.usesCount == |ActivationsOf(s, id)|
    && (p.usesCount <= p.maxUses || p.usesCount == 0)
  }

  /**
   * The integrity the schema and the handlers keep between them: fresh
   * ids lie below the autoincrement counters, the code index matches the
   * promo table, activation records point at promo codes, every
   * withdraw request and referral row belongs to a known user.
   */
  ghost predicate Valid(s: Ledger) {
    && (forall id :: id in s.withdraws ==> id < s.nextWithdrawId && s.withdraws[id].userId in s.users)
    && (forall id :: id in s.promos ==> id < s.nextPromoId && PromoCounted(s, id))
    && (forall c :: c in s.promoIds ==> s.promoIds[c] in s.promos && s.promos[s.promoIds[c]].code == c)
    && (forall id :: id in s.promos ==> s.promos[id].code in s.promoIds && s.promoIds[s.promos[id].code] == id)
    && (forall a :: a in s.activations ==> a.1 in s.promos)
    && (forall u :: u in s.referrals ==> u in s.users)
  }

  /** The guard bot.py applies before recording a referrer: a non-zero id other than the user's own. */
  predicate IsReferrer(referredBy: Option<int>, uid: int) {
    Truthy(referredBy) && referredBy.value != uid
  }

  /** The username stored for a user who has none to show: `user_<id>` (bot.py:381, 637). */
  function PlaceholderName(uid: int): string {
    "user_" + Text.ShowInt(uid)
  }

  /**
   * `add_user`: a new user is stored with balance 0 and the referrer as
   * given, plus a `referrals` row when the referrer passes `IsReferrer`;
   * an existing user gets the new username and, only while its referrer
   * is still null, the new referrer when it passes `IsReferrer`.
   */
  function AddUser(s: Ledger, uid: int, username: string, referredBy: Option<int>, now: int): (s': Ledger)
    ensures uid in s'.users && s'.users[uid].username == username
    ensures s'.users == s.users[uid := s'.users[uid]]
    ensures uid !in s.users ==> s'.users[uid] == User(username, now, referredBy, 0)
    ensures uid in s.users ==>
      && s'.users[uid].balance == s.users[uid].balance
      && s'.users[uid].firstSeen == s.users[uid].firstSeen
    ensures uid in s.users ==>
      (s'.users[uid].referredBy != s.users[uid].referredBy <==>
        s.users[uid].referredBy.None? && IsReferrer(referredBy, uid))
    ensures uid in s.users && s'.users[uid].referredBy != s.users[uid].referredBy ==>
      s'.users[uid].referredBy == referredBy
    ensures s'.referrals.Keys == s.referrals.Keys + (if uid !in s.users && IsReferrer(referredBy, uid) then {uid} else {})
    ensures forall v :: v in s.referrals ==> v in s'.referrals && s'.referrals[v] == s.referrals[v]
    ensures s'.admins == s.admins && s'.withdraws == s.withdraws && s'.promos == s.promos && s'.promoIds == s.promoIds
    ensures s'.activations == s.activations && s'.events == s.events && s'.dailySubs == s.dailySubs
    ensures s'.nextWithdrawId == s.nextWithdrawId && s'.nextPromoId == s.nextPromoId
  {
    var user := if uid in s.users then
        var u := s.users[uid];
        u.(username := username,
           referredBy := if u.referredBy.None? && IsReferrer(referredBy, uid) then referredBy else u.referredBy)
      else User(username, now, referredBy, 0);
    var referrals := if uid !in s.users && IsReferrer(referredBy, uid) && uid !in s.referrals
      then s.referrals[uid := Referral(referredBy.value, now)]
      else s.referrals;
    s.(users := s.users[uid := user], referrals := referrals)
  }

  /** `get_balance`: the stored balance, and 0 for an unknown user. */
  function GetBalance(s: Ledger, uid: int): (b: int)
    ensures uid !in s.users ==> b == 0
  {
    if uid in s.users then s.users[uid].balance else 0
  }

  /**
   * Only balances differ between two user tables: the same users, each
   * with the same username, first-seen time and referrer
   * (`UPDATE users SET balance = …` touches no other column).
   */
  predicate BalancesOnly(a: map<int, User>, b: map<int, User>) {
    a.Keys == b.Keys && forall v :: v in a ==> b[v] == a[v].(balance := b[v].balance)
  }

  /** Two balance-only changes in a row are a balance-only change. */
  lemma BalancesOnlyTrans(a: map<int, User>, b: map<int, User>, c: map<int, User>)
    requires BalancesOnly(a, b) && BalancesOnly(b, c)
    ensures BalancesOnly(a, c)
  {
  }

  /**
   * `change_balance`: adds `delta` to one user's balance with no floor;
   * an unknown user is left unknown and nothing changes.
   */
  function ChangeBalance(s: Ledger, uid: int, delta: int): (s': Ledger)
    ensures s'.users.Keys == s.users.Keys
    ensures GetBalance(s', uid) == GetBalance(s, uid) + (if uid in s.users then delta else 0)
    ensures forall v :: v in s.users && v != uid ==> s'.users[v] == s.users[v]
    ensures uid in s.users ==> s'.users[uid] == s.users[uid].(balance := s'.users[uid].balance)
    ensures s'.users - {uid} == s.users - {uid}
    ensures BalancesOnly(s.users, s'.users)
    ensures s'.(users := s.users) == s
  {
    if uid in s.users then
      s.(users := s.users[uid := s.users[uid].(balance := s.users[uid].balance + delta)])
    else s
  }

  /** `get_referred_by`: the stored referrer, `None` for a null one or an unknown user. */
  function GetReferredBy(s: Ledger, uid: int): (r: Option<int>)
    ensures r.Some? ==> uid in s.users && s.users[uid].referredBy == r
    ensures uid in s.users ==> r == s.users[uid].referredBy
  {
    if uid in s.users then s.users[uid].referredBy else None
  }

  function BalanceOf(u: User): int {
    u.balance
  }

  /** The sum of every balance in the ledger. */
  ghost function TotalBalance(s: Ledger): int {
    Sums.SumMap(s.users, BalanceOf)
  }

  /** Adding a user never changes the total balance: a new user starts at 0. */
  lemma AddUserTotal(s: Ledger, uid: int, username: string, referredBy: Option<int>, now: int)
    ensures TotalBalance(AddUser(s, uid, username, referredBy, now)) == TotalBalance(s)
  {
    var s' := AddUser(s, uid, username, referredBy, now);
    assert s'.users == s.users[uid := s'.users[uid]];
    Sums.SumMapUpdate(s.users, BalanceOf, uid, s'.users[uid]);
  }

  /** `change_balance` moves the total by exactly `delta` when the user exists, and not at all otherwise. */
  lemma ChangeBalanceTotal(s: Ledger, uid: int, delta: int)
    ensures TotalBalance(ChangeBalance(s, uid, delta)) == TotalBalance(s) + (if uid in s.users then delta else 0)
  {
    if uid in s.users {
      var s' := ChangeBalance(s, uid, delta);
      assert s'.users == s.users[uid := s'.users[uid]];
      Sums.SumMapUpdate(s.users, BalanceOf, uid, s'.users[uid]);
    }
  }

  /** Two balance changes add up, and a change undone by its negation leaves the ledger as it was. */
  lemma ChangeBalanceCompose(s: Ledger, uid: int, a: int, b: int)
    ensures ChangeBalance(ChangeBalance(s, uid, a), uid, b) == ChangeBalance(s, uid, a + b)
    ensures ChangeBalance(ChangeBalance(s, uid, a), uid, -a) == s
  {
  }

  /**
   * First referrer wins: once a user's referrer is non-null, no later
   * `add_user` for that user (or any other) changes it.
   */
  lemma FirstReferrerWins(s: Ledger, uid: int, r: int, calls: seq<(int, string, Option<int>, int)>)
    requires uid in s.users && s.users[uid].referredBy == Some(r)
    ensures var s' := AddUsers(s, calls); uid in s'.users && s'.users[uid].referredBy == Some(r)
    decreases |calls|
  {
    if calls != [] {
      var c := calls[0];
      FirstReferrerWins(AddUser(s, c.0, c.1, c.2, c.3), uid, r, calls[1..]);
    }
  }

  /** A run of `add_user` calls, one per (user, username, referrer, time) in order. */
  function AddUsers(s: Ledger, calls: seq<(int, string, Option<int>, int)>): Ledger
    decreases |calls|
  {
    if calls == [] then s
    else
      var c := calls[0];
      AddUsers(AddUser(s, c.0, c.1, c.2, c.3), calls[1..])
  }

  lemma AddUserValid(s: Ledger, uid: int, username: string, referredBy: Option<int>, now: int)
    requires Valid(s)
    ensures Valid(AddUser(s, uid, username, referredBy, now))
  {
    var s' := AddUser(s, uid, username, referredBy, now);
    forall id | id in s'.promos
      ensures ActivationsOf(s', id) == ActivationsOf(s, id)
    {
    }
  }

  lemma ChangeBalanceValid(s: Ledger, uid: int, delta: int)
    requires Valid(s)
    ensures Valid(ChangeBalance(s, uid, delta))
  {
    var s' := ChangeBalance(s, uid, delta);
    forall id | id in s'.promos
      ensures ActivationsOf(s', id) == ActivationsOf(s, id)
    {
    }
  }
}

=== FILE: bot_promo.dfy ===
/**
 * Promo codes of the bot's ledger: admin creation, lookup by upper-cased
 * code, and one-per-user activation against a global use limit.
 */
module BotPromo {
  import opened Wrappers
  import opened BotLedger
  import Text

  datatype CreateOutcome = PromoCreated(id: int) | NotAdmin | CodeTaken

  datatype PromoOutcome = Activated(amount: int) | AlreadyActivated | PromoNotFound | LimitReached | PromoExpired

  /**
   * `createpromo_cmd` + `create_promocode`: an admin stores a code,
   * upper-cased, with no uses yet and valid for `days` days from `now`.
   * A code already present trips the UNIQUE constraint and nothing is stored.
   */
  function CreatePromo(s: Ledger, adminId: int, code: string, amount: int, maxUses: int, days: int, now: int): (r: Step<CreateOutcome>)
    ensures r.outcome.PromoCreated? <==> adminId in s.admins && Text.Upper(code) !in s.promoIds
    ensures !r.outcome.PromoCreated? ==> r.ledger == s
    ensures r.outcome == NotAdmin <==> adminId !in s.admins
    ensures r.outcome.PromoCreated? ==>
      && r.ledger.promos == s.promos[r.outcome.id := Promo(Text.Upper(code), amount, maxUses, 0, now + days * DAY)]
      && r.ledger.promoIds == s.promoIds[Text.Upper(code) := r.outcome.id]
      && r.ledger.users == s.users && r.ledger.activations == s.activations
      && r.ledger.nextPromoId > r.outcome.id
    ensures r.ledger.(promos := s.promos, promoIds := s.promoIds, nextPromoId := s.nextPromoId) == s
  {
    if adminId !in s.admins then Step(s, NotAdmin)
    else
      var key := Text.Upper(code);
      if key in s.promoIds then Step(s, CodeTaken)
      else
        var id := s.nextPromoId;
        var s' := s.(promos := s.promos[id := Promo(key, amount, maxUses, 0, now + days * DAY)],
                     promoIds := s.promoIds[key := id],
                     nextPromoId := id + 1);
        Step(s', PromoCreated(id))
  }

  /** `get_promocode`: the id of the code, looked up after upper-casing it. */
  function FindPromo(s: Ledger, code: string): (r: Option<int>)
    ensures r.Some? <==> Text.Upper(code) in s.promoIds
    ensures r.Some? ==> r.value == s.promoIds[Text.Upper(code)]
  {
    var key := Text.Upper(code);
    if key in s.promoIds then Some(s.promoIds[key]) else None
  }

  /**
   * `activate_promocode`: fails with no change when the user already
   * activated the code, then when the code is missing, then when its uses
   * are exhausted, then when it has expired, in that order; otherwise
   * counts one use, records the activation and credits the amount.
   */
  function ActivatePromo(s: Ledger, uid: int, promoId: int, now: int): (r: Step<PromoOutcome>)
    ensures r.outcome == AlreadyActivated <==> (uid, promoId) in s.activations
    ensures r.outcome == PromoNotFound <==> (uid, promoId) !in s.activations && promoId !in s.promos
    ensures r.outcome == LimitReached <==>
      (uid, promoId) !in s.activations && promoId in s.promos && s.promos[promoId].usesCount >= s.promos[promoId].maxUses
    ensures r.outcome.Activated? <==>
      && (uid, promoId) !in s.activations && promoId in s.promos
      && s.promos[promoId].usesCount < s.promos[promoId].maxUses
      && now <= s.promos[promoId].validUntil
    ensures !r.outcome.Activated? ==> r.ledger == s
    ensures r.outcome.Activated? ==>
      var p := s.promos[promoId];
      && r.outcome.amount == p.amount
      && r.ledger.promos == s.promos[promoId := p.(usesCount := p.usesCount + 1)]
      && r.ledger.activations == s.activations[(uid, promoId) := now]
      && GetBalance(r.ledger, uid) == GetBalance(s, uid) + (if uid in s.users then p.amount else 0)
      && r.ledger.users - {uid} == s.users - {uid}
      && r.ledger.users.Keys == s.users.Keys
      && BalancesOnly(s.users, r.ledger.users)
    ensures r.ledger.(users := s.users, promos := s.promos, activations := s.activations) == s
  {
    if (uid, promoId) in s.activations then Step(s, AlreadyActivated)
    else if promoId !in s.promos then Step(s, PromoNotFound)
    else
      var p := s.promos[promoId];
      if p.usesCount >= p.maxUses then Step(s, LimitReached)
      else if p.validUntil < now then Step(s, PromoExpired)
      else
        var s1 := s.(promos := s.promos[promoId := p.(usesCount := p.usesCount + 1)],
                     activations := s.activations[(uid, promoId) := now]);
        Step(ChangeBalance(s1, uid, p.amount), Activated(p.amount))
  }

  /** The promo branch of `text_handler`: strip, upper-case, look up, activate. */
  function RedeemText(s: Ledger, uid: int, text: string, now: int): (r: Step<PromoOutcome>)
    ensures Text.Upper(Text.Strip(text)) !in s.promoIds ==> r == Step(s, PromoNotFound)
    ensures Text.Upper(Text.Strip(text)) in s.promoIds ==>
      r == ActivatePromo(s, uid, s.promoIds[Text.Upper(Text.Strip(text))], now)
  {
    Text.UpperIdempotent(Text.Strip(text));
    match FindPromo(s, Text.Upper(Text.Strip(text)))
    case None => Step(s, PromoNotFound)
    case Some(id) => ActivatePromo(s, uid, id, now)
  }

  /**
   * Activation keeps the ledger's integrity; in particular a code's use
   * counter keeps matching its activation records and never passes its
   * limit.
   */
  lemma {:induction false} ActivatePromoValid(s: Ledger, uid: int, promoId: int, now: int)
    requires Valid(s)
    ensures Valid(ActivatePromo(s, uid, promoId, now).ledger)
  {
    var r := ActivatePromo(s, uid, promoId, now);
    if r.outcome.Activated? {
      var p := s.promos[promoId];
      var s1 := s.(promos := s.promos[promoId := p.(usesCount := p.usesCount + 1)],
                   activations := s.activations[(uid, promoId) := now]);
      RecordActivationValid(s, uid, promoId, now);
      ChangeBalanceValid(s1, uid, p.amount);
    }
  }

  /** Counting a use and recording the activation, before the credit, keeps the integrity. */
  lemma RecordActivationValid(s: Ledger, uid: int, promoId: int, now: int)
    requires Valid(s)
    requires (uid, promoId) !in s.activations && promoId in s.promos
    requires s.promos[promoId].usesCount < s.promos[promoId].maxUses
    ensures var p := s.promos[promoId];
      Valid(s.(promos := s.promos[promoId := p.(usesCount := p.usesCount + 1)],
               activations := s.activations[(uid, promoId) := now]))
  {
    var p := s.promos[promoId];
    var s' := s.(promos := s.promos[promoId := p.(usesCount := p.usesCount + 1)],
                 activations := s.activations[(uid, promoId) := now]);
    assert ActivationsOf(s', promoId) == ActivationsOf(s, promoId) + {(uid, promoId)};
    assert (uid, promoId) !in ActivationsOf(s, promoId);
    forall id | id in s'.promos
      ensures id < s'.nextPromoId && PromoCounted(s', id)
    {
      if id != promoId {
        assert ActivationsOf(s', id) == ActivationsOf(s, id);
      }
    }
  }

  /** Creating a code keeps the ledger's integrity. */
  lemma CreatePromoValid(s: Ledger, adminId: int, code: string, amount: int, maxUses: int, days: int, now: int)
    requires Valid(s)
    ensures var r := CreatePromo(s, adminId, code, amount, maxUses, days, now);
      && Valid(r.ledger)
      && (r.outcome.PromoCreated? ==> r.outcome.id !in s.promos)
  {
    var r := CreatePromo(s, adminId, code, amount, maxUses, days, now);
    if r.outcome.PromoCreated? {
      var s' := r.ledger;
      var id := r.outcome.id;
      assert ActivationsOf(s', id) == {};
      forall q | q in s'.promos && q != id
        ensures ActivationsOf(s', q) == ActivationsOf(s, q)
      {
      }
    }
  }

  /** A second activation of the same code by the same user is refused and changes nothing. */
  lemma ActivateTwice(s: Ledger, uid: int, promoId: int, now: int, later: int)
    requires ActivatePromo(s, uid, promoId, now).outcome.Activated?
    ensures var s' := ActivatePromo(s, uid, promoId, now).ledger;
      ActivatePromo(s', uid, promoId, later) == Step(s', AlreadyActivated)
  {
  }

  /** A freshly created code is found by any spelling that upper-cases to the same key. */
  lemma CreatedCodeIsFound(s: Ledger, adminId: int, code: string, amount: int, maxUses: int, days: int, now: int, uid: int, text: string, later: int)
    requires Valid(s)
    requires Text.Upper(Text.Strip(text)) == Text.Upper(code)
    requires CreatePromo(s, adminId, code, amount, maxUses, days, now).outcome.PromoCreated?
    ensures var r := CreatePromo(s, adminId, code, amount, maxUses, days, now);
      RedeemText(r.ledger, uid, text, later).outcome != PromoNotFound
  {
    var r := CreatePromo(s, adminId, code, amount, maxUses, days, now);
    assert Text.Upper(Text.Strip(text)) in r.ledger.promoIds;
  }
}

=== FILE: bot_start.dfy ===
/**
 * The `/start` command: the referral link a user shares carries
 * `r<id>` as its start parameter, and starting the bot with such a
 * parameter registers the referrer.
 */
module BotStart {
  import opened Wrappers
  import opened Text
  import opened BotLedger

  /** The start parameter of a user's referral link: `r` followed by the id in decimal. */
  function RefArg(uid: int): (a: string)
    ensures |a| >= 2 && a[0] == 'r'
  {
    "r" + ShowInt(uid)
  }

  /**
   * The referrer named by the command arguments: present only when there
   * is a first argument, it starts with `r`, and the rest is a non-empty
   * run of digits.
   */
  function ParseStartArg(args: seq<string>): (r: Option<int>)
    ensures r.Some? <==> |args| > 0 && |args[0]| > 0 && args[0][0] == 'r' && IsDigits(args[0][1..])
    ensures r.Some? ==> r.value == DigitsValue(args[0][1..])
  {
    if |args| > 0 && |args[0]| > 0 && args[0][0] == 'r' && IsDigits(args[0][1..])
    then Some(DigitsValue(args[0][1..]))
    else None
  }

  /** The name stored for a user: the username, else the full name, else `user_<id>` (an empty string is absent). */
  function DisplayName(username: string, fullName: string, uid: int): (n: string)
    ensures n != []
    ensures username != [] ==> n == username
    ensures username == [] && fullName != [] ==> n == fullName
    ensures username == [] && fullName == [] ==> n == PlaceholderName(uid)
  {
    if username != [] then username
    else if fullName != [] then fullName
    else PlaceholderName(uid)
  }

  /** `start_cmd`: registers (or refreshes) the user with the parsed referrer. */
  function Start(s: Ledger, uid: int, username: string, fullName: string, args: seq<string>, now: int): (s': Ledger)
    ensures uid in s'.users && s'.users[uid].username == DisplayName(username, fullName, uid)
    ensures uid !in s.users ==> s'.users[uid].referredBy == ParseStartArg(args) && s'.users[uid].balance == 0
    ensures uid in s.users ==> s'.users[uid].balance == s.users[uid].balance
  {
    AddUser(s, uid, DisplayName(username, fullName, uid), ParseStartArg(args), now)
  }

  /** The parameter of a referral link parses back to the id it was made from. */
  lemma RefArgRoundTrip(uid: nat, rest: seq<string>)
    ensures ParseStartArg([RefArg(uid)] + rest) == Some(uid)
  {
    var a := RefArg(uid);
    assert ([a] + rest)[0] == a;
    assert a[1..] == ShowNat(uid);
    ShowNatRoundTrip(uid);
  }

  /**
   * A new user who follows another user's referral link is stored with
   * that referrer and gets a referral row; following one's own link
   * records no referral row.
   */
  lemma StartWithLink(s: Ledger, uid: int, referrer: nat, username: string, fullName: string, now: int)
    requires uid !in s.users && uid !in s.referrals
    ensures var s' := Start(s, uid, username, fullName, [RefArg(referrer)], now);
      && s'.users[uid].referredBy == Some(referrer)
      && s'.users[uid].balance == 0
      && (uid in s'.referrals <==> referrer != 0 && referrer != uid)
      && (uid in s'.referrals ==> s'.referrals[uid].referrerId == referrer)
  {
    RefArgRoundTrip(referrer, []);
    assert [RefArg(referrer)] + [] == [RefArg(referrer)];
  }

  /** Starting again, with any link, never replaces a referrer already on record. */
  lemma RestartKeepsReferrer(s: Ledger, uid: int, r: int, username: string, fullName: string, args: seq<string>, now: int)
    requires uid in s.users && s.users[uid].referredBy == Some(r)
    ensures var s' := Start(s, uid, username, fullName, args, now);
      s'.users[uid].referredBy == Some(r) && s'.users[uid].balance == s.users[uid].balance
  {
  }
}

=== FILE: bot_webhook.dfy ===
/**
 * The reward decision of the Tgrass webhook: secret check, payload
 * validation, de-duplication by event id, then either a task reward or a
 * once-per-24-hours subscription reward with a flat bonus to the referrer.
 * The HTTP server and JSON decoding are outside the model: the handler
 * receives the header value and the already-decoded fields.
 */
module BotWebhook {
  import opened Wrappers
  import opened BotLedger
  import Text

  /** The handler's plain-text replies, one constructor per distinct reply. */
  datatype Response = Forbidden | BadPayload | Duplicate | OkTask | Cooldown | OkSub

  /**
   * The decoded body. `userId` is `None` when the field is absent or not
   * an integer; `reward` is `None` when the field is absent or null.
   */
  datatype Payload = Payload(eventId: string, userId: Option<int>, eventType: string, reward: Option<int>)

  /** The header must equal a configured, non-empty secret; with no secret configured nothing is authorised. */
  predicate Authorized(cfg: Config, header: string)
    ensures Authorized(cfg, header) ==> header != "" && header == cfg.secret
    ensures cfg.secret == "" ==> !Authorized(cfg, header)
    ensures Authorized(cfg, header) <==> cfg.secret != "" && header == cfg.secret
  {
    cfg.secret != "" && header == cfg.secret
  }

  /** The event type after `strip().lower()`, when it is one of the two known types. */
  function ParseKind(t: string): (k: Option<EventKind>)
    ensures k == Some(TaskEvent) <==> Text.Lower(Text.Strip(t)) == "task"
    ensures k == Some(SubscriptionEvent) <==> Text.Lower(Text.Strip(t)) == "subscription"
  {
    var n := Text.Lower(Text.Strip(t));
    if n == "task" then Some(TaskEvent)
    else if n == "subscription" then Some(SubscriptionEvent)
    else None
  }

  /** The two type names, in any letter case and with any surrounding whitespace, parse to their kinds. */
  lemma KnownKinds(pre: string, t: string, post: string)
    requires forall i :: 0 <= i < |pre| ==> Text.IsSpace(pre[i])
    requires forall i :: 0 <= i < |post| ==> Text.IsSpace(post[i])
    ensures Text.Lower(t) == "task" ==> ParseKind(pre + t + post) == Some(TaskEvent)
    ensures Text.Lower(t) == "subscription" ==> ParseKind(pre + t + post) == Some(SubscriptionEvent)
  {
    if Text.Lower(t) == "task" || Text.Lower(t) == "subscription" {
      assert Text.Lower(t)[0] == Text.LowerChar(t[0]);
      assert Text.Lower(t)[|t| - 1] == Text.LowerChar(t[|t| - 1]);
      Text.StripExact(pre, t, post);
    }
  }

  /**
   * The de-duplication key: the event id with surrounding whitespace
   * removed. An id made only of whitespace (or nothing) gives the empty
   * key, which the payload check refuses.
   */
  function EventKey(p: Payload): (k: string)
    ensures (forall i :: 0 <= i < |p.eventId| ==> Text.IsSpace(p.eventId[i])) <==> k == []
  {
    Text.Strip(p.eventId)
  }

  /** The key of an id is its core, the text between its leading and trailing whitespace. */
  lemma EventKeyIsCore(p: Payload, pre: string, core: string, post: string)
    requires p.eventId == pre + core + post
    requires forall i :: 0 <= i < |pre| ==> Text.IsSpace(pre[i])
    requires forall i :: 0 <= i < |post| ==> Text.IsSpace(post[i])
    requires core == [] || (!Text.IsSpace(core[0]) && !Text.IsSpace(core[|core| - 1]))
    ensures EventKey(p) == core
  {
    Text.StripExact(pre, core, post);
  }

  /** The payload check: a non-blank id, an integer user and one of the two known types. */
  predicate WellFormed(p: Payload) {
    EventKey(p) != "" && p.userId.Some? && ParseKind(p.eventType).Some?
  }

  /** The reward of a well-formed event: the given one, or the type's configured default. */
  function RewardOf(cfg: Config, p: Payload): (r: int)
    requires WellFormed(p)
    ensures p.reward.Some? ==> r == p.reward.value
    ensures p.reward.None? && ParseKind(p.eventType) == Some(TaskEvent) ==> r == cfg.defaultTaskReward
    ensures p.reward.None? && ParseKind(p.eventType) == Some(SubscriptionEvent) ==> r == cfg.defaultSubReward
  {
    if p.reward.Some? then p.reward.value
    else if ParseKind(p.eventType) == Some(TaskEvent) then cfg.defaultTaskReward
    else cfg.defaultSubReward
  }

  /** `tgrass_seen_event`. */
  predicate SeenEvent(s: Ledger, eventId: string) {
    eventId in s.events
  }

  /** Once saved, an event id is seen, whatever the record; the other ids are seen as before. */
  lemma SavedIsSeen(s: Ledger, eventId: string, uid: int, kind: EventKind, reward: int, now: int, other: string)
    ensures SeenEvent(SaveEvent(s, eventId, uid, kind, reward, now), eventId)
    ensures other != eventId ==> SeenEvent(SaveEvent(s, eventId, uid, kind, reward, now), other) == SeenEvent(s, other)
  {
  }

  /** `tgrass_save_event`: INSERT OR IGNORE, so an id already logged keeps its first record. */
  function SaveEvent(s: Ledger, eventId: string, uid: int, kind: EventKind, reward: int, now: int): (s': Ledger)
    ensures eventId in s.events ==> s' == s
    ensures eventId !in s.events ==> s'.events == s.events[eventId := Event(uid, kind, reward, now)]
    ensures s'.(events := s.events) == s
  {
    if eventId in s.events then s
    else s.(events := s.events[eventId := Event(uid, kind, reward, now)])
  }

  /** `can_daily_sub_reward`: no stamp yet, or at least 24 hours since it. */
  predicate CanDailySubReward(s: Ledger, uid: int, now: int) {
    uid !in s.dailySubs || now - s.dailySubs[uid] >= DAY
  }

  /**
   * The stamp's window: after a reward stamped at `t`, the next one is
   * allowed at `later` exactly when 24 hours have passed; other users'
   * windows are not affected.
   */
  lemma StampWindow(s: Ledger, uid: int, t: int, later: int, other: int)
    requires other != uid
    ensures CanDailySubReward(MarkDailySubReward(s, uid, t), uid, later) <==> later >= t + DAY
    ensures CanDailySubReward(MarkDailySubReward(s, uid, t), other, later) == CanDailySubReward(s, other, later)
  {
  }

  /** `mark_daily_sub_reward`: upsert the user's stamp to `now`. */
  function MarkDailySubReward(s: Ledger, uid: int, now: int): (s': Ledger)
    ensures s'.dailySubs == s.dailySubs[uid := now]
    ensures !CanDailySubReward(s', uid, now)
    ensures s'.(dailySubs := s.dailySubs) == s
  {
    s.(dailySubs := s.dailySubs[uid := now])
  }

  /** Who receives the flat subscription bonus, if anyone: a non-zero referrer other than the user, while the bonus is positive. */
  function BonusTarget(s: Ledger, cfg: Config, uid: int): (t: Option<int>)
    ensures t.Some? <==>
      uid in s.users && Truthy(s.users[uid].referredBy) && s.users[uid].referredBy.value != uid && cfg.refBonusOnSub > 0
    ensures t.Some? ==> t.value != uid && t.value != 0 && cfg.refBonusOnSub > 0
    ensures t.Some? ==> GetReferredBy(s, uid) == t
  {
    var ref := GetReferredBy(s, uid);
    if Truthy(ref) && ref.value != uid && cfg.refBonusOnSub > 0 then ref else None
  }

  /** The task branch: credit the reward, then log the event with it. */
  function TaskStep(s: Ledger, key: string, uid: int, reward: int, now: int): (s': Ledger)
    requires key !in s.events
    ensures s'.events == s.events[key := Event(uid, TaskEvent, reward, now)]
    ensures s'.users == ChangeBalance(s, uid, reward).users
    ensures s'.(users := s.users, events := s.events) == s
  {
    SaveEvent(ChangeBalance(s, uid, reward), key, uid, TaskEvent, reward, now)
  }

  /** The paid subscription branch, before the referrer's bonus: credit, stamp, log. */
  function PaySubscription(s: Ledger, key: string, uid: int, reward: int, now: int): (s': Ledger)
    requires key !in s.events
    ensures s'.events == s.events[key := Event(uid, SubscriptionEvent, reward, now)]
    ensures s'.dailySubs == s.dailySubs[uid := now]
    ensures s'.users == ChangeBalance(s, uid, reward).users
    ensures s'.(users := s.users, events := s.events, dailySubs := s.dailySubs) == s
  {
    SaveEvent(MarkDailySubReward(ChangeBalance(s, uid, reward), uid, now), key, uid, SubscriptionEvent, reward, now)
  }

  /** The users a paid subscription event credits: the user, and the bonus target if any. */
  function Payees(uid: int, bonus: Option<int>): set<int> {
    if bonus.Some? then {uid, bonus.value} else {uid}
  }

  /**
   * The subscription branch: inside the 24-hour window the event is only
   * logged, with reward 0; otherwise the user is credited the reward and
   * stamped, the event is logged with the reward, and the referrer
   * chosen by `BonusTarget` is credited the flat bonus. No one else's
   * balance moves, and no table but users, events and stamps changes.
   */
  function SubscriptionStep(s: Ledger, cfg: Config, key: string, uid: int, reward: int, now: int): (r: Step<Response>)
    requires key !in s.events
    ensures r.outcome == Cooldown <==> !CanDailySubReward(s, uid, now)
    ensures r.outcome != Cooldown ==> r.outcome == OkSub
    ensures r.outcome == Cooldown ==>
      r.ledger == s.(events := s.events[key := Event(uid, SubscriptionEvent, 0, now)])
    ensures r.outcome == OkSub ==>
      var bonus := BonusTarget(s, cfg, uid);
      && GetBalance(r.ledger, uid) == GetBalance(s, uid) + (if uid in s.users then reward else 0)
      && (bonus.Some? ==>
            GetBalance(r.ledger, bonus.value) == GetBalance(s, bonus.value) + (if bonus.value in s.users then cfg.refBonusOnSub else 0))
      && r.ledger.users - Payees(uid, bonus) == s.users - Payees(uid, bonus)
      && r.ledger.users.Keys == s.users.Keys
      && BalancesOnly(s.users, r.ledger.users)
      && r.ledger.dailySubs == s.dailySubs[uid := now]
      && r.ledger.events == s.events[key := Event(uid, SubscriptionEvent, reward, now)]
    ensures r.ledger.(users := s.users, events := s.events, dailySubs := s.dailySubs) == s
  {
    if !CanDailySubReward(s, uid, now) then
      Step(SaveEvent(s, key, uid, SubscriptionEvent, 0, now), Cooldown)
    else
      var s2 := PaySubscription(s, key, uid, reward, now);
      assert GetReferredBy(s2, uid) == GetReferredBy(s, uid);
      var bonus := BonusTarget(s2, cfg, uid);
      PaidBalances(s, s2, uid, reward, bonus, cfg.refBonusOnSub);
      match bonus
      case Some(ref) => Step(ChangeBalance(s2, ref, cfg.refBonusOnSub), OkSub)
      case None => Step(s2, OkSub)
  }

  /**
   * Crediting `reward` to `uid` and then `amount` to a distinct bonus
   * target moves exactly those two balances, each only if its user is
   * known, and the total by the sum of what was credited.
   */
  lemma PaidBalances(s: Ledger, s2: Ledger, uid: int, reward: int, bonus: Option<int>, amount: int)
    requires s2.users == ChangeBalance(s, uid, reward).users
    requires bonus.Some? ==> bonus.value != uid
    ensures var t := if bonus.Some? then ChangeBalance(s2, bonus.value, amount) else s2;
      && GetBalance(t, uid) == GetBalance(s, uid) + (if uid in s.users then reward else 0)
      && (bonus.Some? ==>
            GetBalance(t, bonus.value) == GetBalance(s, bonus.value) + (if bonus.value in s.users then amount else 0))
      && t.users - Payees(uid, bonus) == s.users - Payees(uid, bonus)
      && t.users.Keys == s.users.Keys
      && TotalBalance(t) == TotalBalance(s) + (if uid in s.users then reward else 0)
                            + (if bonus.Some? && bonus.value in s.users then amount else 0)
  {
    var c := ChangeBalance(s, uid, reward);
    ChangeBalanceTotal(s, uid, reward);
    assert TotalBalance(s2) == TotalBalance(c);
    if bonus.Some? {
      CreditBonus(s, s2, uid, reward, bonus.value, amount);
      assert Payees(uid, bonus) == {uid, bonus.value};
    } else {
      assert GetBalance(s2, uid) == GetBalance(c, uid);
    }
  }

  /** The bonus half of `PaidBalances`: a second credit, to a user other than `uid`. */
  lemma CreditBonus(s: Ledger, s2: Ledger, uid: int, reward: int, b: int, amount: int)
    requires s2.users == ChangeBalance(s, uid, reward).users && b != uid
    ensures var t := ChangeBalance(s2, b, amount);
      && GetBalance(t, uid) == GetBalance(s, uid) + (if uid in s.users then reward else 0)
      && GetBalance(t, b) == GetBalance(s, b) + (if b in s.users then amount else 0)
      && t.users - {uid, b} == s.users - {uid, b}
      && t.users.Keys == s.users.Keys
      && TotalBalance(t) == TotalBalance(s) + (if uid in s.users then reward else 0) + (if b in s.users then amount else 0)
  {
    var c := ChangeBalance(s, uid, reward);
    ChangeBalanceTotal(s, uid, reward);
    assert TotalBalance(s2) == TotalBalance(c);
    ChangeBalanceTotal(s2, b, amount);
    var t := ChangeBalance(s2, b, amount);
    assert t.users - {uid, b} == s.users - {uid, b} by {
      assert t.users - {b} == s2.users - {b};
      assert t.users - {uid, b} == t.users - {b} - {uid};
      assert s.users - {uid, b} == s.users - {uid} - {b};
    }
  }

  /** `tgrass_webhook`, from the secret check to the reply. */
  function Webhook(s: Ledger, cfg: Config, header: string, p: Payload, now: int): (r: Step<Response>)
    ensures r.outcome == Forbidden <==> !Authorized(cfg, header)
    ensures r.outcome == BadPayload <==> Authorized(cfg, header) && !WellFormed(p)
    ensures r.outcome == Duplicate <==> Authorized(cfg, header) && WellFormed(p) && EventKey(p) in s.events
    ensures r.outcome in {Forbidden, BadPayload, Duplicate} ==> r.ledger == s
    ensures r.outcome == OkTask <==> Fresh(s, cfg, header, p) && ParseKind(p.eventType) == Some(TaskEvent)
    ensures r.outcome in {OkTask, Cooldown, OkSub} ==>
      EventKey(p) in r.ledger.events && r.ledger.events == s.events[EventKey(p) := r.ledger.events[EventKey(p)]]
    ensures r.ledger.(users := s.users, events := s.events, dailySubs := s.dailySubs) == s
    ensures s.users.Keys <= r.ledger.users.Keys
  {
    if !Authorized(cfg, header) then Step(s, Forbidden)
    else if !WellFormed(p) then Step(s, BadPayload)
    else
      var key := EventKey(p);
      var uid := p.userId.value;
      if SeenEvent(s, key) then Step(s, Duplicate)
      else Accept(s, cfg, key, uid, ParseKind(p.eventType).value, RewardOf(cfg, p), now)
  }

  /** A fresh, well-formed event: register the user, then the branch for its type. */
  function Accept(s: Ledger, cfg: Config, key: string, uid: int, kind: EventKind, reward: int, now: int): (r: Step<Response>)
    requires key !in s.events
    ensures r.outcome == OkTask <==> kind == TaskEvent
    ensures r.outcome in {OkTask, Cooldown, OkSub}
    ensures key in r.ledger.events && r.ledger.events == s.events[key := r.ledger.events[key]]
    ensures r.ledger.(users := s.users, events := s.events, dailySubs := s.dailySubs) == s
    ensures r.ledger.users.Keys == s.users.Keys + {uid}
  {
    var s1 := AddUser(s, uid, PlaceholderName(uid), None, now);
    assert s1.referrals == s.referrals;
    if kind == TaskEvent then Step(TaskStep(s1, key, uid, reward, now), OkTask)
    else SubscriptionStep(s1, cfg, key, uid, reward, now)
  }

  /** An accepted event: authorised, well formed and not logged before. */
  predicate Fresh(s: Ledger, cfg: Config, header: string, p: Payload) {
    Authorized(cfg, header) && WellFormed(p) && EventKey(p) !in s.events
  }

  /**
   * Delivering an event a second time is reported as a duplicate and
   * changes nothing, whatever the time of the second delivery.
   */
  lemma ReplayIsDuplicate(s: Ledger, cfg: Config, header: string, p: Payload, now: int, later: int)
    requires Authorized(cfg, header) && WellFormed(p)
    ensures var s' := Webhook(s, cfg, header, p, now).ledger;
      Webhook(s', cfg, header, p, later) == Step(s', Duplicate)
  {
  }

  /**
   * A redelivery whose id differs only in surrounding whitespace is the
   * same event: it is reported as a duplicate and changes nothing.
   */
  lemma PaddedReplayIsDuplicate(s: Ledger, cfg: Config, header: string, p: Payload, pre: string, post: string, now: int, later: int)
    requires Authorized(cfg, header) && WellFormed(p)
    requires forall i :: 0 <= i < |pre| ==> Text.IsSpace(pre[i])
    requires forall i :: 0 <= i < |post| ==> Text.IsSpace(post[i])
    ensures var s' := Webhook(s, cfg, header, p, now).ledger;
      Webhook(s', cfg, header, p.(eventId := pre + p.eventId + post), later) == Step(s', Duplicate)
  {
    var q := p.(eventId := pre + p.eventId + post);
    Text.StripPadded(pre, p.eventId, post);
    assert EventKey(q) == EventKey(p);
  }

  /** Registering the webhook's user changes no balance and no referrer, and no other user's row. */
  lemma PlaceholderKeepsBalances(s: Ledger, uid: int, now: int)
    ensures var s1 := AddUser(s, uid, PlaceholderName(uid), None, now);
      && uid in s1.users
      && s1.users - {uid} == s.users - {uid}
      && GetBalance(s1, uid) == GetBalance(s, uid)
      && GetReferredBy(s1, uid) == GetReferredBy(s, uid)
  {
  }

  /** A task event credits its reward to the user and touches no other user, and logs the event with that reward. */
  lemma TaskEventCredits(s: Ledger, cfg: Config, header: string, p: Payload, now: int)
    requires Fresh(s, cfg, header, p) && ParseKind(p.eventType) == Some(TaskEvent)
    ensures var r := Webhook(s, cfg, header, p, now);
      var uid := p.userId.value;
      && r.outcome == OkTask
      && GetBalance(r.ledger, uid) == GetBalance(s, uid) + RewardOf(cfg, p)
      && r.ledger.users - {uid} == s.users - {uid}
      && r.ledger.events[EventKey(p)] == Event(uid, TaskEvent, RewardOf(cfg, p), now)
      && r.ledger.dailySubs == s.dailySubs
  {
    WebhookAccepts(s, cfg, header, p, now);
    AcceptTask(s, cfg, EventKey(p), p.userId.value, RewardOf(cfg, p), now);
  }

  /** The task branch of `Accept`, as `TaskEventCredits` states it. */
  lemma AcceptTask(s: Ledger, cfg: Config, key: string, uid: int, reward: int, now: int)
    requires key !in s.events
    ensures var r := Accept(s, cfg, key, uid, TaskEvent, reward, now);
      && r.outcome == OkTask
      && GetBalance(r.ledger, uid) == GetBalance(s, uid) + reward
      && r.ledger.users - {uid} == s.users - {uid}
      && r.ledger.events[key] == Event(uid, TaskEvent, reward, now)
      && r.ledger.dailySubs == s.dailySubs
  {
    var s1 := AddUser(s, uid, PlaceholderName(uid), None, now);
    assert Accept(s, cfg, key, uid, TaskEvent, reward, now) == Step(TaskStep(s1, key, uid, reward, now), OkTask);
    PlaceholderKeepsBalances(s, uid, now);
  }

  /** A fresh delivery is handed to `Accept` with its key, user, type and reward. */
  lemma WebhookAccepts(s: Ledger, cfg: Config, header: string, p: Payload, now: int)
    requires Fresh(s, cfg, header, p)
    ensures Webhook(s, cfg, header, p, now) ==
      Accept(s, cfg, EventKey(p), p.userId.value, ParseKind(p.eventType).value, RewardOf(cfg, p), now)
  {
  }

  /**
   * Inside the 24-hour window a subscription event pays nothing, leaves
   * the stamp alone and is still logged, with reward 0.
   */
  lemma SubscriptionInCooldown(s: Ledger, cfg: Config, header: string, p: Payload, now: int)
    requires Fresh(s, cfg, header, p) && ParseKind(p.eventType) == Some(SubscriptionEvent)
    requires !CanDailySubReward(s, p.userId.value, now)
    ensures var r := Webhook(s, cfg, header, p, now);
      var uid := p.userId.value;
      && r.outcome == Cooldown
      && GetBalance(r.ledger, uid) == GetBalance(s, uid)
      && r.ledger.users - {uid} == s.users - {uid}
      && r.ledger.dailySubs == s.dailySubs
      && r.ledger.events[EventKey(p)] == Event(uid, SubscriptionEvent, 0, now)
  {
    WebhookAccepts(s, cfg, header, p, now);
    AcceptCooldown(s, cfg, EventKey(p), p.userId.value, RewardOf(cfg, p), now);
  }

  /** The refused subscription branch of `Accept`, as `SubscriptionInCooldown` states it. */
  lemma AcceptCooldown(s: Ledger, cfg: Config, key: string, uid: int, reward: int, now: int)
    requires key !in s.events && !CanDailySubReward(s, uid, now)
    ensures var r := Accept(s, cfg, key, uid, SubscriptionEvent, reward, now);
      && r.outcome == Cooldown
      && GetBalance(r.ledger, uid) == GetBalance(s, uid)
      && r.ledger.users - {uid} == s.users - {uid}
      && r.ledger.dailySubs == s.dailySubs
      && r.ledger.events[key] == Event(uid, SubscriptionEvent, 0, now)
  {
    var s1 := AddUser(s, uid, PlaceholderName(uid), None, now);
    assert Accept(s, cfg, key, uid, SubscriptionEvent, reward, now) == SubscriptionStep(s1, cfg, key, uid, reward, now);
    PlaceholderKeepsBalances(s, uid, now);
  }

  /**
   * Outside the window (or with no stamp yet) a subscription event
   * credits its reward, stamps `now`, logs the event, and pays the flat
   * bonus to the referrer when there is one to pay and it is a known user.
   */
  lemma SubscriptionRewarded(s: Ledger, cfg: Config, header: string, p: Payload, now: int)
    requires Fresh(s, cfg, header, p) && ParseKind(p.eventType) == Some(SubscriptionEvent)
    requires CanDailySubReward(s, p.userId.value, now)
    ensures var r := Webhook(s, cfg, header, p, now);
      var uid := p.userId.value;
      var bonus := BonusTarget(s, cfg, uid);
      && r.outcome == OkSub
      && GetBalance(r.ledger, uid) == GetBalance(s, uid) + RewardOf(cfg, p)
      && (bonus.Some? ==>
            GetBalance(r.ledger, bonus.value) == GetBalance(s, bonus.value) + (if bonus.value in s.users then cfg.refBonusOnSub else 0))
      && r.ledger.users - Payees(uid, bonus) == s.users - Payees(uid, bonus)
      && r.ledger.dailySubs == s.dailySubs[uid := now]
      && r.ledger.events[EventKey(p)] == Event(uid, SubscriptionEvent, RewardOf(cfg, p), now)
  {
    WebhookAccepts(s, cfg, header, p, now);
    AcceptRewarded(s, cfg, EventKey(p), p.userId.value, RewardOf(cfg, p), now);
  }

  /** The paid subscription branch of `Accept`, as `SubscriptionRewarded` states it. */
  lemma AcceptRewarded(s: Ledger, cfg: Config, key: string, uid: int, reward: int, now: int)
    requires key !in s.events && CanDailySubReward(s, uid, now)
    ensures var r := Accept(s, cfg, key, uid, SubscriptionEvent, reward, now);
      var bonus := BonusTarget(s, cfg, uid);
      && r.outcome == OkSub
      && GetBalance(r.ledger, uid) == GetBalance(s, uid) + reward
      && (bonus.Some? ==>
            GetBalance(r.ledger, bonus.value) == GetBalance(s, bonus.value) + (if bonus.value in s.users then cfg.refBonusOnSub else 0))
      && r.ledger.users - Payees(uid, bonus) == s.users - Payees(uid, bonus)
      && r.ledger.dailySubs == s.dailySubs[uid := now]
      && r.ledger.events[key] == Event(uid, SubscriptionEvent, reward, now)
  {
    var s1 := AddUser(s, uid, PlaceholderName(uid), None, now);
    assert Accept(s, cfg, key, uid, SubscriptionEvent, reward, now) == SubscriptionStep(s1, cfg, key, uid, reward, now);
    PlaceholderKeepsBalances(s, uid, now);
    assert BonusTarget(s1, cfg, uid) == BonusTarget(s, cfg, uid);
    var bonus := BonusTarget(s, cfg, uid);
    FrameWiden(s1.users, s.users, uid, Payees(uid, bonus));
    if bonus.Some? {
      var b := bonus.value;
      assert (b in s1.users <==> b in s.users) && GetBalance(s1, b) == GetBalance(s, b) by {
        assert b in s1.users - {uid} <==> b in s.users - {uid};
      }
    }
  }

  /** Tables that agree away from `x` agree away from any set holding `x`. */
  lemma FrameWiden(a: map<int, User>, b: map<int, User>, x: int, keys: set<int>)
    requires x in keys && a - {x} == b - {x}
    ensures a - keys == b - keys
  {
    assert forall k :: k !in keys ==> (k in a <==> k in (a - {x})) && (k in b <==> k in (b - {x}));
  }

  /** The paid subscription branch moves the total by the reward and the bonus, each only when its user is known. */
  lemma PaidSubscriptionTotal(s: Ledger, cfg: Config, key: string, uid: int, reward: int, now: int)
    requires key !in s.events && CanDailySubReward(s, uid, now)
    ensures var r := SubscriptionStep(s, cfg, key, uid, reward, now);
      var bonus := BonusTarget(s, cfg, uid);
      TotalBalance(r.ledger) == TotalBalance(s) + (if uid in s.users then reward else 0)
                                + (if bonus.Some? && bonus.value in s.users then cfg.refBonusOnSub else 0)
  {
    var s2 := PaySubscription(s, key, uid, reward, now);
    assert GetReferredBy(s2, uid) == GetReferredBy(s, uid);
    PaidBalances(s, s2, uid, reward, BonusTarget(s, cfg, uid), cfg.refBonusOnSub);
  }

  /**
   * The total of all balances moves by exactly what the reply accounts
   * for: the task reward, or the subscription reward plus a bonus paid
   * to a known referrer; nothing for any other reply.
   */
  lemma WebhookTotal(s: Ledger, cfg: Config, header: string, p: Payload, now: int)
    ensures var r := Webhook(s, cfg, header, p, now);
      TotalBalance(r.ledger) == TotalBalance(s) +
        (match r.outcome
         case OkTask => RewardOf(cfg, p)
         case OkSub =>
           var t := BonusTarget(s, cfg, p.userId.value);
           RewardOf(cfg, p) + (if t.Some? && t.value in s.users then cfg.refBonusOnSub else 0)
         case _ => 0)
  {
    if Fresh(s, cfg, header, p) {
      var uid := p.userId.value;
      var key := EventKey(p);
      var reward := RewardOf(cfg, p);
      var kind := ParseKind(p.eventType).value;
      assert Webhook(s, cfg, header, p, now) == Accept(s, cfg, key, uid, kind, reward, now);
      AcceptTotal(s, cfg, key, uid, kind, reward, now);
    }
  }

  /** The total after an accepted event, by branch. */
  lemma AcceptTotal(s: Ledger, cfg: Config, key: string, uid: int, kind: EventKind, reward: int, now: int)
    requires key !in s.events
    ensures var r := Accept(s, cfg, key, uid, kind, reward, now);
      TotalBalance(r.ledger) == TotalBalance(s) +
        (match r.outcome
         case OkTask => reward
         case OkSub =>
           var t := BonusTarget(s, cfg, uid);
           reward + (if t.Some? && t.value in s.users then cfg.refBonusOnSub else 0)
         case _ => 0)
  {
    var s1 := AddUser(s, uid, PlaceholderName(uid), None, now);
    AddUserTotal(s, uid, PlaceholderName(uid), None, now);
    PlaceholderKeepsBalances(s, uid, now);
    if kind == TaskEvent {
      ChangeBalanceTotal(s1, uid, reward);
    } else {
      var r := SubscriptionStep(s1, cfg, key, uid, reward, now);
      if CanDailySubReward(s1, uid, now) {
        assert BonusTarget(s1, cfg, uid) == BonusTarget(s, cfg, uid);
        PaidSubscriptionTotal(s1, cfg, key, uid, reward, now);
      } else {
        assert r.ledger.users == s1.users;
      }
    }
  }

  /**
   * `Valid` says nothing about balances, the event log or the daily
   * stamps, and only needs the users it mentions to stay known.
   */
  lemma ValidFrame(s: Ledger, s': Ledger)
    requires Valid(s)
    requires s'.(users := s.users, events := s.events, dailySubs := s.dailySubs) == s
    requires s.users.Keys <= s'.users.Keys
    ensures Valid(s')
  {
    forall id | id in s.promos
      ensures ActivationsOf(s', id) == ActivationsOf(s, id)
    {
    }
  }

  /** Every accepted or refused delivery keeps the ledger's integrity. */
  lemma WebhookValid(s: Ledger, cfg: Config, header: string, p: Payload, now: int)
    requires Valid(s)
    ensures Valid(Webhook(s, cfg, header, p, now).ledger)
  {
    ValidFrame(s, Webhook(s, cfg, header, p, now).ledger);
  }

  /** With the default settings the secret is empty, so every delivery is refused. */
  /** With a secret configured, a delivery that carries it is never refused as forbidden. */
  lemma SecretAccepted(s: Ledger, cfg: Config, p: Payload, now: int)
    requires cfg.secret != ""
    ensures Webhook(s, cfg, cfg.secret, p, now).outcome != Forbidden
  {
  }

  /**
   * Events with different ids are different events: after one is
   * handled, another whose id was not logged is not a duplicate.
   */
  lemma DistinctIdsAreDistinctEvents(s: Ledger, cfg: Config, header: string, p: Payload, q: Payload, now: int, later: int)
    requires Authorized(cfg, header) && WellFormed(p) && WellFormed(q)
    requires |p.eventId| > 0 && !Text.IsSpace(p.eventId[0]) && !Text.IsSpace(p.eventId[|p.eventId| - 1])
    requires |q.eventId| > 0 && !Text.IsSpace(q.eventId[0]) && !Text.IsSpace(q.eventId[|q.eventId| - 1])
    requires p.eventId != q.eventId && q.eventId !in s.events
    ensures Webhook(Webhook(s, cfg, header, p, now).ledger, cfg, header, q, later).outcome != Duplicate
  {
    Text.StripUnpadded(p.eventId);
    Text.StripUnpadded(q.eventId);
  }

  lemma DefaultConfigRefusesAll(s: Ledger, header: string, p: Payload, now: int)
    ensures Webhook(s, DefaultConfig, header, p, now) == Step(s, Forbidden)
  {
  }

  /**
   * For an accepted subscription event the reply is `Cooldown` exactly
   * when the user has a stamp less than 24 hours old.
   */
  lemma CooldownWindow(s: Ledger, cfg: Config, header: string, p: Payload, now: int)
    requires Fresh(s, cfg, header, p) && ParseKind(p.eventType) == Some(SubscriptionEvent)
    ensures var r := Webhook(s, cfg, header, p, now);
      && (r.outcome == Cooldown <==> p.userId.value in s.dailySubs && now - s.dailySubs[p.userId.value] < DAY)
      && (r.outcome != Cooldown ==> r.outcome == OkSub)
  {
    var uid := p.userId.value;
    var s1 := AddUser(s, uid, PlaceholderName(uid), None, now);
    assert Webhook(s, cfg, header, p, now) == SubscriptionStep(s1, cfg, EventKey(p), uid, RewardOf(cfg, p), now);
  }

  /** What one subscription delivery leaves behind for the next one. */
  lemma SubscriptionTrace(s: Ledger, cfg: Config, header: string, p: Payload, now: int)
    requires Fresh(s, cfg, header, p) && ParseKind(p.eventType) == Some(SubscriptionEvent)
    ensures var r := Webhook(s, cfg, header, p, now);
      var uid := p.userId.value;
      && (r.outcome == OkSub ==>
            r.ledger.dailySubs == s.dailySubs[uid := now]
            && GetBalance(r.ledger, uid) == GetBalance(s, uid) + RewardOf(cfg, p))
      && (r.outcome == Cooldown ==>
            r.ledger.dailySubs == s.dailySubs
            && GetBalance(r.ledger, uid) == GetBalance(s, uid)
            && r.ledger.events[EventKey(p)].reward == 0)
  {
    CooldownWindow(s, cfg, header, p, now);
    if CanDailySubReward(s, p.userId.value, now) {
      SubscriptionRewarded(s, cfg, header, p, now);
    } else {
      SubscriptionInCooldown(s, cfg, header, p, now);
    }
  }

  /**
   * The 24-hour rule over three deliveries for one user: paid at `t`,
   * refused one hour later (but logged), paid again 25 hours after `t`.
   */
  lemma DailyCooldownScenario(s: Ledger, cfg: Config, header: string, p1: Payload, p2: Payload, p3: Payload, t: int)
    requires Authorized(cfg, header)
    requires WellFormed(p1) && WellFormed(p2) && WellFormed(p3)
    requires ParseKind(p1.eventType) == ParseKind(p2.eventType) == ParseKind(p3.eventType) == Some(SubscriptionEvent)
    requires p1.userId == p2.userId == p3.userId
    requires EventKey(p1) != EventKey(p2) && EventKey(p1) != EventKey(p3) && EventKey(p2) != EventKey(p3)
    requires EventKey(p1) !in s.events && EventKey(p2) !in s.events && EventKey(p3) !in s.events
    requires CanDailySubReward(s, p1.userId.value, t)
    ensures var uid := p1.userId.value;
      var r1 := Webhook(s, cfg, header, p1, t);
      var r2 := Webhook(r1.ledger, cfg, header, p2, t + 3600);
      var r3 := Webhook(r2.ledger, cfg, header, p3, t + 25 * 3600);
      && r1.outcome == OkSub && r2.outcome == Cooldown && r3.outcome == OkSub
      && GetBalance(r2.ledger, uid) == GetBalance(r1.ledger, uid)
      && r2.ledger.events[EventKey(p2)].reward == 0
      && GetBalance(r3.ledger, uid) == GetBalance(r2.ledger, uid) + RewardOf(cfg, p3)
  {
    var uid := p1.userId.value;
    var r1 := Webhook(s, cfg, header, p1, t);
    CooldownWindow(s, cfg, header, p1, t);
    SubscriptionTrace(s, cfg, header, p1, t);
    assert EventKey(p2) !in r1.ledger.events.Keys && EventKey(p3) !in r1.ledger.events.Keys;
    var r2 := Webhook(r1.ledger, cfg, header, p2, t + 3600);
    CooldownWindow(r1.ledger, cfg, header, p2, t + 3600);
    SubscriptionTrace(r1.ledger, cfg, header, p2, t + 3600);
    assert EventKey(p3) !in r2.ledger.events.Keys;
    CooldownWindow(r2.ledger, cfg, header, p3, t + 25 * 3600);
    SubscriptionTrace(r2.ledger, cfg, header, p3, t + 25 * 3600);
  }
}

=== FILE: bot_withdraw.dfy ===
/**
 * Withdraw requests: a user asks to cash out part of the balance, which
 * is debited at once; an admin later approves the request or rejects it,
 * and a rejection refunds the amount.
 */
module BotWithdraw {
  import opened Wrappers
  import opened BotLedger
  import Sums

  datatype RequestOutcome = Requested(id: int) | NotPositive | NotEnough | DailyLimit

  datatype AdminOutcome = NotAdmin | RequestNotFound | AlreadyProcessed | Done

  /** The user's requests stamped within the 24 hours before `now` (strictly after `now - DAY`). */
  function RecentRequests(s: Ledger, uid: int, now: int): set<int> {
    set id | id in s.withdraws && s.withdraws[id].userId == uid && s.withdraws[id].ts > now - DAY
  }

  /** `withdraws_count_last_24h`: every status counts, rejected requests included. */
  function WithdrawsLast24h(s: Ledger, uid: int, now: int): (n: nat)
    ensures n <= |s.withdraws|
  {
    var recent := RecentRequests(s, uid, now);
    Sums.CardinalitySubset(recent, s.withdraws.Keys);
    |recent|
  }

  /**
   * The count is 0 exactly when each of the user's requests is at least
   * 24 hours old; requests of other users never count.
   */
  lemma NoRecentRequests(s: Ledger, uid: int, now: int)
    ensures WithdrawsLast24h(s, uid, now) == 0 <==>
      forall id :: id in s.withdraws && s.withdraws[id].userId == uid ==> s.withdraws[id].ts <= now - DAY
  {
    var recent := RecentRequests(s, uid, now);
    if forall id :: id in s.withdraws && s.withdraws[id].userId == uid ==> s.withdraws[id].ts <= now - DAY {
      assert recent == {};
    } else {
      var id :| id in s.withdraws && s.withdraws[id].userId == uid && s.withdraws[id].ts > now - DAY;
      assert id in recent;
    }
  }

  /**
   * The withdraw branch of `text_handler`, on an already-parsed amount and
   * kind: the amount must be positive, covered by the balance, and the
   * user must have made fewer than the daily maximum of requests in the
   * last 24 hours, checked in that order. Then the balance is debited and
   * a pending request is stored under a fresh id.
   */
  function RequestWithdraw(s: Ledger, cfg: Config, uid: int, amount: int, kind: string, now: int): (r: Step<RequestOutcome>)
    ensures r.outcome == NotPositive <==> amount <= 0
    ensures r.outcome == NotEnough <==> 0 < amount && GetBalance(s, uid) < amount
    ensures r.outcome.Requested? <==>
      0 < amount <= GetBalance(s, uid) && WithdrawsLast24h(s, uid, now) < cfg.maxWithdrawsPerDay
    ensures !r.outcome.Requested? ==> r.ledger == s
    ensures r.outcome.Requested? ==>
      && uid in s.users
      && r.outcome.id == s.nextWithdrawId
      && GetBalance(r.ledger, uid) == GetBalance(s, uid) - amount
      && r.ledger.withdraws == s.withdraws[r.outcome.id := Withdraw(uid, amount, kind, Pending, None, now)]
      && r.ledger.nextWithdrawId == s.nextWithdrawId + 1
      && r.ledger.users - {uid} == s.users - {uid}
      && BalancesOnly(s.users, r.ledger.users)
    ensures r.ledger.(users := s.users, withdraws := s.withdraws, nextWithdrawId := s.nextWithdrawId) == s
  {
    var balance := GetBalance(s, uid);
    if amount <= 0 then Step(s, NotPositive)
    else if amount > balance then Step(s, NotEnough)
    else if WithdrawsLast24h(s, uid, now) >= cfg.maxWithdrawsPerDay then Step(s, DailyLimit)
    else
      var s1 := ChangeBalance(s, uid, -amount);
      var id := s.nextWithdrawId;
      var s2 := s1.(withdraws := s1.withdraws[id := Withdraw(uid, amount, kind, Pending, None, now)],
                    nextWithdrawId := id + 1);
      Step(s2, Requested(id))
  }

  /** `set_withdraw_status`: an UPDATE by id, so an unknown id changes nothing. */
  function SetWithdrawStatus(s: Ledger, rid: int, status: WithdrawStatus, adminId: int): (s': Ledger)
    ensures rid !in s.withdraws ==> s' == s
    ensures rid in s.withdraws ==>
      s'.withdraws == s.withdraws[rid := s.withdraws[rid].(status := status, adminId := Some(adminId))]
    ensures s'.(withdraws := s.withdraws) == s
  {
    if rid in s.withdraws then
      s.(withdraws := s.withdraws[rid := s.withdraws[rid].(status := status, adminId := Some(adminId))])
    else s
  }

  /**
   * `reject_cmd`: only an admin; the request must exist and still be
   * pending; then the amount goes back to its owner and the request
   * becomes rejected.
   */
  function Reject(s: Ledger, adminId: int, rid: int): (r: Step<AdminOutcome>)
    ensures r.outcome == NotAdmin <==> adminId !in s.admins
    ensures r.outcome == RequestNotFound <==> adminId in s.admins && rid !in s.withdraws
    ensures r.outcome == AlreadyProcessed <==>
      adminId in s.admins && rid in s.withdraws && s.withdraws[rid].status != Pending
    ensures r.outcome != Done ==> r.ledger == s
    ensures r.outcome == Done ==>
      var w := s.withdraws[rid];
      && w.status == Pending
      && r.ledger.withdraws == s.withdraws[rid := w.(status := Rejected, adminId := Some(adminId))]
      && GetBalance(r.ledger, w.userId) == GetBalance(s, w.userId) + (if w.userId in s.users then w.amount else 0)
      && r.ledger.users - {w.userId} == s.users - {w.userId}
      && BalancesOnly(s.users, r.ledger.users)
    ensures r.ledger.(users := s.users, withdraws := s.withdraws) == s
  {
    if adminId !in s.admins then Step(s, NotAdmin)
    else if rid !in s.withdraws then Step(s, RequestNotFound)
    else
      var w := s.withdraws[rid];
      if w.status != Pending then Step(s, AlreadyProcessed)
      else Step(SetWithdrawStatus(ChangeBalance(s, w.userId, w.amount), rid, Rejected, adminId), Done)
  }

  /**
   * `approve_cmd` as written: any admin may mark any id approved; the
   * current status is not consulted, so a rejected (already refunded)
   * request can be re-marked approved.
   */
  function ApproveAsWritten(s: Ledger, adminId: int, rid: int): (r: Step<AdminOutcome>)
    ensures r.outcome == NotAdmin <==> adminId !in s.admins
    ensures r.outcome != NotAdmin ==> r.outcome == Done
    ensures r.outcome == NotAdmin || rid !in s.withdraws ==> r.ledger == s
    ensures r.outcome == Done && rid in s.withdraws ==>
      && r.ledger.withdraws == s.withdraws[rid := s.withdraws[rid].(status := Approved, adminId := Some(adminId))]
      && r.ledger.users == s.users
    ensures r.ledger.(withdraws := s.withdraws) == s
  {
    if adminId !in s.admins then Step(s, NotAdmin)
    else Step(SetWithdrawStatus(s, rid, Approved, adminId), Done)
  }

  /**
   * Approval with the same guard `reject_cmd` applies: only a pending
   * request is approved; anything else is refused with no change.
   */
  function Approve(s: Ledger, adminId: int, rid: int): (r: Step<AdminOutcome>)
    ensures r.outcome == NotAdmin <==> adminId !in s.admins
    ensures r.outcome == RequestNotFound <==> adminId in s.admins && rid !in s.withdraws
    ensures r.outcome == AlreadyProcessed <==>
      adminId in s.admins && rid in s.withdraws && s.withdraws[rid].status != Pending
    ensures r.outcome != Done ==> r.ledger == s
    ensures r.outcome == Done ==>
      && s.withdraws[rid].status == Pending
      && r.ledger.withdraws == s.withdraws[rid := s.withdraws[rid].(status := Approved, adminId := Some(adminId))]
      && r.ledger.users == s.users
    ensures r.ledger.(withdraws := s.withdraws) == s
  {
    if adminId !in s.admins then Step(s, NotAdmin)
    else if rid !in s.withdraws then Step(s, RequestNotFound)
    else if s.withdraws[rid].status != Pending then Step(s, AlreadyProcessed)
    else Step(SetWithdrawStatus(s, rid, Approved, adminId), Done)
  }

  /** What a request still holds of its owner's money: its amount unless it was rejected (and so refunded). */
  function OutstandingOf(uid: int): Withdraw -> int {
    (w: Withdraw) => if w.userId == uid && w.status != Rejected then w.amount else 0
  }

  /** A user's money in the ledger: the balance plus what pending and approved requests took from it. */
  ghost function Holdings(s: Ledger, uid: int): int {
    GetBalance(s, uid) + Sums.SumMap(s.withdraws, OutstandingOf(uid))
  }

  /** A request moves money from the balance into the request: every user's holdings stay the same. */
  lemma RequestKeepsHoldings(s: Ledger, cfg: Config, uid: int, amount: int, kind: string, now: int, v: int)
    requires Valid(s)
    ensures Holdings(RequestWithdraw(s, cfg, uid, amount, kind, now).ledger, v) == Holdings(s, v)
  {
    var r := RequestWithdraw(s, cfg, uid, amount, kind, now);
    if r.outcome.Requested? {
      var id := r.outcome.id;
      assert id !in s.withdraws;
      Sums.SumMapUpdate(s.withdraws, OutstandingOf(v), id, Withdraw(uid, amount, kind, Pending, None, now));
    }
  }

  /** A rejection moves the amount back from the request to the balance: holdings stay the same. */
  lemma RejectKeepsHoldings(s: Ledger, adminId: int, rid: int, v: int)
    requires Valid(s)
    ensures Holdings(Reject(s, adminId, rid).ledger, v) == Holdings(s, v)
  {
    var r := Reject(s, adminId, rid);
    if r.outcome == Done {
      var w := s.withdraws[rid];
      Sums.SumMapUpdate(s.withdraws, OutstandingOf(v), rid, w.(status := Rejected, adminId := Some(adminId)));
    }
  }

  /** An approval (of a pending request) only relabels it: holdings stay the same. */
  lemma ApproveKeepsHoldings(s: Ledger, adminId: int, rid: int, v: int)
    ensures Holdings(Approve(s, adminId, rid).ledger, v) == Holdings(s, v)
  {
    var r := Approve(s, adminId, rid);
    if r.outcome == Done {
      var w := s.withdraws[rid];
      Sums.SumMapUpdate(s.withdraws, OutstandingOf(v), rid, w.(status := Approved, adminId := Some(adminId)));
    }
  }

  /** A request is refunded at most once: a second rejection finds it already processed. */
  lemma RejectOnce(s: Ledger, adminId: int, rid: int, adminId2: int)
    requires Reject(s, adminId, rid).outcome == Done
    requires adminId2 in s.admins
    ensures var s' := Reject(s, adminId, rid).ledger;
      Reject(s', adminId2, rid) == Step(s', AlreadyProcessed)
  {
  }

  /** Once approved, a request can no longer be rejected, so it is never refunded. */
  lemma NoRefundAfterApprove(s: Ledger, adminId: int, rid: int, adminId2: int)
    requires Approve(s, adminId, rid).outcome == Done
    requires adminId2 in s.admins
    ensures var s' := Approve(s, adminId, rid).ledger;
      Reject(s', adminId2, rid) == Step(s', AlreadyProcessed)
  {
  }

  /**
   * The daily cap holds: an accepted request raises the user's count of
   * requests in the last 24 hours by exactly one, to at most the maximum.
   */
  lemma DailyCapRespected(s: Ledger, cfg: Config, uid: int, amount: int, kind: string, now: int)
    requires Valid(s)
    requires RequestWithdraw(s, cfg, uid, amount, kind, now).outcome.Requested?
    ensures var s' := RequestWithdraw(s, cfg, uid, amount, kind, now).ledger;
      && WithdrawsLast24h(s', uid, now) == WithdrawsLast24h(s, uid, now) + 1
      && WithdrawsLast24h(s', uid, now) <= cfg.maxWithdrawsPerDay
  {
    var r := RequestWithdraw(s, cfg, uid, amount, kind, now);
    var id := r.outcome.id;
    var m := s.withdraws[id := Withdraw(uid, amount, kind, Pending, None, now)];
    assert r.ledger.withdraws == m;
    assert id !in s.withdraws;
    var before := RecentRequests(s, uid, now);
    assert RecentRequests(r.ledger, uid, now) == before + {id} by {
      assert forall j :: j in m && m[j].userId == uid && m[j].ts > now - DAY <==> j in before || j == id;
    }
  }

  /** A withdraw request keeps the ledger's integrity. */
  lemma RequestWithdrawValid(s: Ledger, cfg: Config, uid: int, amount: int, kind: string, now: int)
    requires Valid(s)
    ensures Valid(RequestWithdraw(s, cfg, uid, amount, kind, now).ledger)
  {
    var r := RequestWithdraw(s, cfg, uid, amount, kind, now);
    if r.outcome.Requested? {
      ChangeBalanceValid(s, uid, -amount);
      var s1 := ChangeBalance(s, uid, -amount);
      assert r.ledger == s1.(withdraws := r.ledger.withdraws, nextWithdrawId := r.ledger.nextWithdrawId);
      SameActivations(s1, r.ledger);
    }
  }

  /** A rejection keeps the ledger's integrity. */
  lemma RejectValid(s: Ledger, adminId: int, rid: int)
    requires Valid(s)
    ensures Valid(Reject(s, adminId, rid).ledger)
  {
    var j := Reject(s, adminId, rid);
    if j.outcome == Done {
      var w := s.withdraws[rid];
      ChangeBalanceValid(s, w.userId, w.amount);
      SameActivations(ChangeBalance(s, w.userId, w.amount), j.ledger);
    }
  }

  /** An approval, guarded or not, keeps the ledger's integrity. */
  lemma ApproveValid(s: Ledger, adminId: int, rid: int)
    requires Valid(s)
    ensures Valid(Approve(s, adminId, rid).ledger)
    ensures Valid(ApproveAsWritten(s, adminId, rid).ledger)
  {
    SetWithdrawStatusValid(s, rid, Approved, adminId);
  }

  lemma SetWithdrawStatusValid(s: Ledger, rid: int, status: WithdrawStatus, adminId: int)
    requires Valid(s)
    ensures Valid(SetWithdrawStatus(s, rid, status, adminId))
  {
    SameActivations(s, SetWithdrawStatus(s, rid, status, adminId));
  }

  lemma SameActivations(s: Ledger, s': Ledger)
    requires s'.activations == s.activations
    ensures forall id :: ActivationsOf(s', id) == ActivationsOf(s, id)
  {
  }

  /**
   * What the unguarded approval allows: a pending request rejected (and
   * refunded) and then approved ends up approved, with the refund kept,
   * so the owner's holdings grow by the amount out of nothing.
   */
  lemma ApproveAfterRejectAsWritten(s: Ledger, adminId: int, rid: int)
    requires Valid(s)
    requires adminId in s.admins && rid in s.withdraws && s.withdraws[rid].status == Pending
    ensures var w := s.withdraws[rid];
      var s1 := Reject(s, adminId, rid).ledger;
      var s2 := ApproveAsWritten(s1, adminId, rid).ledger;
      && s2.withdraws[rid].status == Approved
      && GetBalance(s2, w.userId) == GetBalance(s, w.userId) + w.amount
      && Holdings(s2, w.userId) == Holdings(s, w.userId) + w.amount
  {
    var w := s.withdraws[rid];
    var s1 := Reject(s, adminId, rid).ledger;
    RejectKeepsHoldings(s, adminId, rid, w.userId);
    var s2 := ApproveAsWritten(s1, adminId, rid).ledger;
    var w1 := s1.withdraws[rid];
    assert s2.withdraws == s1.withdraws[rid := w1.(status := Approved, adminId := Some(adminId))];
    Sums.SumMapUpdate(s1.withdraws, OutstandingOf(w.userId), rid, w1.(status := Approved, adminId := Some(adminId)));
  }

  /** The corrected approval refuses the same sequence: a rejected request stays rejected. */
  lemma ApproveAfterRejectRefused(s: Ledger, adminId: int, rid: int)
    requires adminId in s.admins && rid in s.withdraws && s.withdraws[rid].status == Pending
    ensures var s1 := Reject(s, adminId, rid).ledger;
      Approve(s1, adminId, rid) == Step(s1, AlreadyProcessed)
  {
  }
}

=== FILE: db_assignments.dfy ===
/**
 * Task assignments: at most one row per (task, user), created pending by
 * default, and status updates that keep a recorded proof unless a new one
 * is given.
 */
module DbAssignments {
  import opened Wrappers
  import opened DbStore

  /**
   * `create_assignment`: INSERT OR IGNORE under `UNIQUE(task_id, user_id)`.
   * A new pair gets a fresh id, returned; an existing pair is left as it
   * is and nothing is inserted (`None`).
   */
  function CreateAssignment(db: Db, taskId: int, userId: int, status: string, now: int): (r: (Db, Option<int>))
    ensures r.1.None? <==> HasPair(db, taskId, userId)
    ensures r.1.None? ==> r.0 == db
    ensures r.1.Some? ==>
      && r.1.value == db.nextAssignmentId
      && r.0.assignments == db.assignments[r.1.value := Assignment(taskId, userId, status, None, None, now, now)]
      && r.0.nextAssignmentId == db.nextAssignmentId + 1
    ensures r.0.(assignments := db.assignments, nextAssignmentId := db.nextAssignmentId) == db
  {
    if HasPair(db, taskId, userId) then (db, None)
    else
      var id := db.nextAssignmentId;
      (db.(assignments := db.assignments[id := Assignment(taskId, userId, status, None, None, now, now)],
           nextAssignmentId := id + 1), Some(id))
  }

  /**
   * `update_assignment_status`: sets the status and the comment (a `None`
   * comment clears it), keeps the old proof when no new one is given, and
   * stamps `updated_at`; an unknown id changes nothing.
   */
  function UpdateAssignmentStatus(db: Db, id: int, status: string, proof: Option<string>, comment: Option<string>, now: int): (db': Db)
    ensures id !in db.assignments ==> db' == db
    ensures db'.assignments.Keys == db.assignments.Keys
    ensures id in db.assignments ==>
      var a := db.assignments[id];
      var a' := db'.assignments[id];
      && a'.status == status
      && a'.proof == (if proof.Some? then proof else a.proof)
      && a'.comment == comment
      && a'.updatedAt == now
      && a'.taskId == a.taskId && a'.userId == a.userId && a'.createdAt == a.createdAt
    ensures db'.assignments - {id} == db.assignments - {id}
    ensures db'.(assignments := db.assignments) == db
  {
    if id in db.assignments then
      var a := db.assignments[id];
      db.(assignments := db.assignments[id := a.(status := status,
                                                 proof := if proof.Some? then proof else a.proof,
                                                 comment := comment,
                                                 updatedAt := now)])
    else db
  }

  /** Creating an assignment keeps (task, user) pairs unique and the id counter ahead. */
  lemma CreateAssignmentValid(db: Db, taskId: int, userId: int, status: string, now: int)
    requires DbValid(db)
    ensures DbValid(CreateAssignment(db, taskId, userId, status, now).0)
  {
    var r := CreateAssignment(db, taskId, userId, status, now);
    if r.1.Some? {
      var id := r.1.value;
      var a := r.0.assignments;
      forall i, j | i in a && j in a && a[i].taskId == a[j].taskId && a[i].userId == a[j].userId
        ensures i == j
      {
        if i != j {
          // one of them is the new row, so the other would witness HasPair
          assert false;
        }
      }
    }
  }

  /** Status updates never change a row's pair, so uniqueness is kept. */
  lemma UpdateAssignmentValid(db: Db, id: int, status: string, proof: Option<string>, comment: Option<string>, now: int)
    requires DbValid(db)
    ensures DbValid(UpdateAssignmentStatus(db, id, status, proof, comment, now))
  {
    var db' := UpdateAssignmentStatus(db, id, status, proof, comment, now);
    var a := db'.assignments;
    forall i, j | i in a && j in a && a[i].taskId == a[j].taskId && a[i].userId == a[j].userId
      ensures i == j
    {
      assert db.assignments[i].taskId == a[i].taskId && db.assignments[i].userId == a[i].userId;
      assert db.assignments[j].taskId == a[j].taskId && db.assignments[j].userId == a[j].userId;
    }
  }

  /**
   * A second `create_assignment` for the same pair inserts nothing: the
   * row, with the status it has reached, stays as it was.
   */
  lemma SecondCreateKeepsStatus(db: Db, taskId: int, userId: int, status1: string, status2: string,
                                newStatus: string, proof: Option<string>, comment: Option<string>, t1: int, t2: int, t3: int)
    requires !HasPair(db, taskId, userId)
    ensures var (db1, id) := CreateAssignment(db, taskId, userId, status1, t1);
      && id.Some?
      && var db2 := UpdateAssignmentStatus(db1, id.value, newStatus, proof, comment, t2);
      && CreateAssignment(db2, taskId, userId, status2, t3) == (db2, None)
      && db2.assignments[id.value].status == newStatus
  {
    var (db1, id) := CreateAssignment(db, taskId, userId, status1, t1);
    var db2 := UpdateAssignmentStatus(db1, id.value, newStatus, proof, comment, t2);
    assert db2.assignments[id.value].taskId == taskId && db2.assignments[id.value].userId == userId;
  }

  /** A proof, once recorded, survives every later update that brings no new proof, whatever its status and comment. */
  lemma {:induction false} ProofSurvives(db: Db, id: int, p: string, updates: seq<(string, Option<string>, Option<string>, int)>)
    requires id in db.assignments && db.assignments[id].proof == Some(p)
    requires forall k :: 0 <= k < |updates| ==> updates[k].1 == None
    ensures var db' := UpdateAll(db, id, updates);
      id in db'.assignments && db'.assignments[id].proof == Some(p)
    decreases |updates|
  {
    if updates != [] {
      var u := updates[0];
      var db1 := UpdateAssignmentStatus(db, id, u.0, u.1, u.2, u.3);
      assert forall k :: 0 <= k < |updates[1..]| ==> updates[1..][k] == updates[k + 1];
      ProofSurvives(db1, id, p, updates[1..]);
    }
  }

  /** A run of status updates of one assignment, each (status, proof, comment, time). */
  function UpdateAll(db: Db, id: int, updates: seq<(string, Option<string>, Option<string>, int)>): Db
    decreases |updates|
  {
    if updates == [] then db
    else
      var u := updates[0];
      UpdateAll(UpdateAssignmentStatus(db, id, u.0, u.1, u.2, u.3), id, updates[1..])
  }
}

=== FILE: db_promo.dfy ===
/**
 * Promo codes of the second schema: one row per upper-cased code with an
 * optional expiry and an optional counter of uses left (NULL = unlimited).
 * Redemption has no per-user record, unlike the bot's activations.
 */
module DbPromo {
  import opened Wrappers
  import Text
  import opened DbStore

  datatype RedeemOutcome = Redeemed(reward: int) | NotFound | Expired | Inactive

  /** The amount `redeem_promocode` returns: the reward on success, 0 on every failure. */
  function Credited(o: RedeemOutcome): int {
    if o.Redeemed? then o.reward else 0
  }

  /** `create_promocode`: INSERT OR REPLACE under the upper-cased code, so an existing code is overwritten. */
  function CreatePromocode(db: Db, code: string, reward: int, expiresAt: Option<int>, usesLeft: Option<int>): (db': Db)
    ensures db'.promos == db.promos[Text.Upper(code) := DbPromo(reward, expiresAt, usesLeft)]
    ensures db'.(promos := db.promos) == db
  {
    db.(promos := db.promos[Text.Upper(code) := DbPromo(reward, expiresAt, usesLeft)])
  }

  /** The expiry test: an expiry is set and lies before `now`. */
  predicate ExpiredAt(p: DbPromo, now: int) {
    p.expiresAt.Some? && p.expiresAt.value < now
  }

  /** The exhaustion test: a counter is set and has reached 0 (or below). */
  predicate Exhausted(p: DbPromo) {
    p.usesLeft.Some? && p.usesLeft.value <= 0
  }

  /**
   * `redeem_promocode`: looks the upper-cased code up; fails when it is
   * missing, then when it has expired, then when its counter is used up,
   * in that order, changing nothing; otherwise credits the reward to the
   * user (a no-op UPDATE for an unknown user) and counts down a non-NULL
   * counter.
   */
  function RedeemPromocode(db: Db, uid: int, code: string, now: int): (r: (Db, RedeemOutcome))
    ensures r.1 == NotFound <==> Text.Upper(code) !in db.promos
    ensures r.1 == Expired <==> Text.Upper(code) in db.promos && ExpiredAt(db.promos[Text.Upper(code)], now)
    ensures r.1 == Inactive <==>
      Text.Upper(code) in db.promos && !ExpiredAt(db.promos[Text.Upper(code)], now) && Exhausted(db.promos[Text.Upper(code)])
    ensures !r.1.Redeemed? ==> r.0 == db && Credited(r.1) == 0
    ensures r.1.Redeemed? ==>
      var p := db.promos[Text.Upper(code)];
      && Credited(r.1) == p.reward
      && r.0.promos == db.promos[Text.Upper(code) := p.(usesLeft := if p.usesLeft.Some? then Some(p.usesLeft.value - 1) else None)]
      && r.0.users == IncrementBalance(db, uid, p.reward).users
      && r.0.(users := db.users, promos := db.promos) == db
  {
    var key := Text.Upper(code);
    if key !in db.promos then (db, NotFound)
    else
      var p := db.promos[key];
      if ExpiredAt(p, now) then (db, Expired)
      else if Exhausted(p) then (db, Inactive)
      else
        var db1 := IncrementBalance(db, uid, p.reward);
        var left := if p.usesLeft.Some? then Some(p.usesLeft.value - 1) else None;
        (db1.(promos := db1.promos[key := p.(usesLeft := left)]), Redeemed(p.reward))
  }

  /** Lookup ignores letter case: two spellings with the same upper-case form redeem alike. */
  lemma RedeemIgnoresCase(db: Db, uid: int, c1: string, c2: string, now: int)
    requires Text.Upper(c1) == Text.Upper(c2)
    ensures RedeemPromocode(db, uid, c1, now) == RedeemPromocode(db, uid, c2, now)
  {
  }

  /** The last `create_promocode` for a key wins, whatever spelling either call used. */
  lemma CreateReplaces(db: Db, c1: string, c2: string, r1: int, r2: int, e1: Option<int>, e2: Option<int>, u1: Option<int>, u2: Option<int>)
    requires Text.Upper(c1) == Text.Upper(c2)
    ensures CreatePromocode(CreatePromocode(db, c1, r1, e1, u1), c2, r2, e2, u2) == CreatePromocode(db, c2, r2, e2, u2)
  {
  }

  /**
   * A code just created (unexpired, with uses left) is redeemed under
   * any spelling: the reward is credited to a known user.
   */
  lemma CreatedCodeRedeems(db: Db, uid: int, code: string, text: string, reward: int, expiresAt: Option<int>, usesLeft: Option<int>, now: int)
    requires Text.Upper(text) == Text.Upper(code)
    requires expiresAt.None? || now <= expiresAt.value
    requires usesLeft.None? || usesLeft.value > 0
    requires uid in db.users
    ensures var (db', o) := RedeemPromocode(CreatePromocode(db, code, reward, expiresAt, usesLeft), uid, text, now);
      && o == Redeemed(reward)
      && db'.users[uid].balance == db.users[uid].balance + reward
  {
  }

  /** There is no per-user record: the same user redeems an unlimited code again and again. */
  lemma SameUserTwice(db: Db, uid: int, code: string, now: int, later: int)
    requires Text.Upper(code) in db.promos
    requires db.promos[Text.Upper(code)].usesLeft.None?
    requires !ExpiredAt(db.promos[Text.Upper(code)], later) && now <= later
    requires uid in db.users
    ensures var (db1, o1) := RedeemPromocode(db, uid, code, now);
      var (db2, o2) := RedeemPromocode(db1, uid, code, later);
      && o1.Redeemed? && o2.Redeemed?
      && db2.users[uid].balance == db.users[uid].balance + 2 * db.promos[Text.Upper(code)].reward
  {
  }

  /** Redemptions of one code in order, each by (user, time); returns the store and the number that succeeded. */
  function RedeemRun(db: Db, code: string, reqs: seq<(int, int)>): (Db, nat)
    decreases |reqs|
  {
    if reqs == [] then (db, 0)
    else
      var (db1, o) := RedeemPromocode(db, reqs[0].0, code, reqs[0].1);
      var (db2, n) := RedeemRun(db1, code, reqs[1..]);
      (db2, n + (if o.Redeemed? then 1 else 0))
  }

  /**
   * A counter of `n >= 0` uses is never overrun: over any run of
   * redemptions at most `n` succeed, and the counter ends at `n` minus
   * the successes, which is never negative.
   */
  lemma {:induction false} CounterNeverOverruns(db: Db, code: string, n: int, reqs: seq<(int, int)>)
    requires Text.Upper(code) in db.promos && db.promos[Text.Upper(code)].usesLeft == Some(n) && n >= 0
    ensures var (db', k) := RedeemRun(db, code, reqs);
      && k <= n
      && Text.Upper(code) in db'.promos
      && db'.promos[Text.Upper(code)].usesLeft == Some(n - k)
    decreases |reqs|
  {
    if reqs != [] {
      var (db1, o) := RedeemPromocode(db, reqs[0].0, code, reqs[0].1);
      var m := if o.Redeemed? then n - 1 else n;
      assert db1.promos[Text.Upper(code)].usesLeft == Some(m);
      CounterNeverOverruns(db1, code, m, reqs[1..]);
    }
  }

  /** Promo operations leave the other tables, and so the store's integrity, alone. */
  lemma PromoOpsValid(db: Db, uid: int, code: string, reward: int, expiresAt: Option<int>, usesLeft: Option<int>, now: int)
    requires DbValid(db)
    ensures DbValid(CreatePromocode(db, code, reward, expiresAt, usesLeft))
    ensures DbValid(RedeemPromocode(db, uid, code, now).0)
  {
  }
}

=== FILE: db_stats.dfy ===
/** `get_stats`: the users count, the tasks count and the sum of all balances. */
module DbStats {
  import opened Wrappers
  import Sums
  import opened DbStore

  datatype Stats = Stats(users: nat, tasks: nat, balanceSum: int)

  /**
   * Counts the users and adds up their balances one row at a time, in
   * whatever order the rows come; `SUM` over no rows is NULL, which the
   * source turns into 0.
   */
  method GetStats(db: Db) returns (st: Stats)
    ensures st.users == |db.users|
    ensures st.tasks == |db.tasks|
    ensures st.balanceSum == DbTotal(db)
    ensures db.users == map[] ==> st.balanceSum == 0
  {
    var rest := db.users.Keys;
    var count := 0;
    var sum := 0;
    while rest != {}
      invariant rest <= db.users.Keys
      invariant count + |rest| == |db.users.Keys|
      invariant sum + Sums.SumKeys(db.users, DbBalance, rest) == DbTotal(db)
      decreases rest
    {
      var k := Sums.Pick(rest);
      Sums.SumKeysRemove(db.users, DbBalance, rest, k);
      sum := sum + db.users[k].balance;
      count := count + 1;
      rest := rest - {k};
    }
    st := Stats(count, |db.tasks|, sum);
  }

  /** Registering a new user adds one to the user count and leaves the task count and the balance sum as they were. */
  method StatsAfterNewUser(db: Db, uid: int, now: int) returns (before: Stats, after: Stats)
    requires uid !in db.users
    ensures after.users == before.users + 1
    ensures after.tasks == before.tasks
    ensures after.balanceSum == before.balanceSum
  {
    before := GetStats(db);
    var db' := AddUserIfNotExists(db, uid, None, now);
    AddUserKeepsTotal(db, uid, None, now);
    assert db'.users.Keys == db.users.Keys + {uid};
    after := GetStats(db');
  }
}

=== FILE: db_store.dfy ===
/**
 * The store of the second schema (database.py) as an immutable value:
 * users with a balance, a level and a referrer; tasks; task assignments;
 * promo codes with an optional use counter; subscription watches. Rows
 * with an AUTOINCREMENT key get their id from a counter that only grows,
 * so a deleted id is never handed out again.
 *
 * This module holds the tables, their integrity, and the user and task
 * operations; the other tables have a module each.
 */
module DbStore {
  import opened Wrappers
  import Sums

  datatype DbUser = DbUser(balance: int, level: int, referrerId: Option<int>, createdAt: int)

  /** A row of `tasks`; `payload` is the JSON text the dictionary was serialised to. */
  datatype Task = Task(kind: string, title: string, description: string, reward: int, payload: string,
                       createdBy: Option<int>, createdAt: int)

  datatype Assignment = Assignment(taskId: int, userId: int, status: string,
                                   proof: Option<string>, comment: Option<string>, createdAt: int, updatedAt: int)

  /** A row of `promocodes`, keyed by its upper-cased code; `None` stands for a NULL column. */
  datatype DbPromo = DbPromo(reward: int, expiresAt: Option<int>, usesLeft: Option<int>)

  datatype Watch = Watch(userId: int, chatId: string, reward: int, taskId: int, dueAt: int, stage: string)

  datatype Db = Db(
    users: map<int, DbUser>,
    tasks: map<int, Task>,
    nextTaskId: int,
    assignments: map<int, Assignment>,
    nextAssignmentId: int,
    promos: map<string, DbPromo>,
    watches: map<int, Watch>,
    nextWatchId: int)

  /** The empty store `init_db` creates; AUTOINCREMENT ids start at 1. */
  function Empty(): (db: Db)
    ensures DbValid(db)
  {
    Db(map[], map[], 1, map[], 1, map[], map[], 1)
  }

  /** The assignment for (task, user), if any: `get_assignment_by_task_user`. */
  predicate HasPair(db: Db, taskId: int, userId: int) {
    exists id :: id in db.assignments && db.assignments[id].taskId == taskId && db.assignments[id].userId == userId
  }

  /** `UNIQUE(task_id, user_id)`: no two assignments share a (task, user) pair. */
  ghost predicate UniquePairs(a: map<int, Assignment>) {
    forall i, j :: i in a && j in a && a[i].taskId == a[j].taskId && a[i].userId == a[j].userId ==> i == j
  }

  /** Integrity: every AUTOINCREMENT id lies below its counter, and assignment pairs are unique. */
  ghost predicate DbValid(db: Db) {
    && (forall id :: id in db.tasks ==> id < db.nextTaskId)
    && (forall id :: id in db.assignments ==> id < db.nextAssignmentId)
    && (forall id :: id in db.watches ==> id < db.nextWatchId)
    && UniquePairs(db.assignments)
  }

  /**
   * `add_user_if_not_exists`: a missing user is created with balance 0,
   * level 1 and the referrer as given; for an existing user a truthy
   * referrer fills a NULL `referrer_id` (COALESCE) and nothing else changes.
   */
  function AddUserIfNotExists(db: Db, uid: int, referrerId: Option<int>, now: int): (db': Db)
    ensures uid in db'.users
    ensures db'.users == db.users[uid := db'.users[uid]]
    ensures uid !in db.users ==> db'.users[uid] == DbUser(0, 1, referrerId, now)
    ensures uid in db.users ==>
      && db'.users[uid].balance == db.users[uid].balance
      && db'.users[uid].level == db.users[uid].level
      && db'.users[uid].createdAt == db.users[uid].createdAt
      && db'.users[uid].referrerId ==
           (if db.users[uid].referrerId.None? && Truthy(referrerId) then referrerId else db.users[uid].referrerId)
    ensures db'.(users := db.users) == db
  {
    if uid !in db.users then db.(users := db.users[uid := DbUser(0, 1, referrerId, now)])
    else if Truthy(referrerId) then
      var u := db.users[uid];
      db.(users := db.users[uid := u.(referrerId := if u.referrerId.None? then referrerId else u.referrerId)])
    else db
  }

  /** `increment_balance`: adds `delta` with no lower bound; an unknown user is not created. */
  function IncrementBalance(db: Db, uid: int, delta: int): (db': Db)
    ensures db'.users.Keys == db.users.Keys
    ensures uid in db.users ==> db'.users[uid] == db.users[uid].(balance := db.users[uid].balance + delta)
    ensures db'.users - {uid} == db.users - {uid}
    ensures db'.(users := db.users) == db
  {
    if uid in db.users then
      db.(users := db.users[uid := db.users[uid].(balance := db.users[uid].balance + delta)])
    else db
  }

  /** `update_level`: sets the level of an existing user and nothing else. */
  function UpdateLevel(db: Db, uid: int, level: int): (db': Db)
    ensures db'.users.Keys == db.users.Keys
    ensures uid in db.users ==> db'.users[uid] == db.users[uid].(level := level)
    ensures db'.users - {uid} == db.users - {uid}
    ensures db'.(users := db.users) == db
  {
    if uid in db.users then db.(users := db.users[uid := db.users[uid].(level := level)])
    else db
  }

  /** `create_task`: stores the task under a fresh id and returns that id. */
  function CreateTask(db: Db, kind: string, title: string, description: string, reward: int, payload: string,
                      createdBy: Option<int>, now: int): (r: (Db, int))
    ensures r.1 == db.nextTaskId && r.0.nextTaskId == db.nextTaskId + 1
    ensures r.0.tasks == db.tasks[r.1 := Task(kind, title, description, reward, payload, createdBy, now)]
    ensures r.0.(tasks := db.tasks, nextTaskId := db.nextTaskId) == db
  {
    var id := db.nextTaskId;
    (db.(tasks := db.tasks[id := Task(kind, title, description, reward, payload, createdBy, now)],
         nextTaskId := id + 1), id)
  }

  function DbBalance(u: DbUser): int {
    u.balance
  }

  /** `SUM(balance)` over the users table. */
  ghost function DbTotal(db: Db): int {
    Sums.SumMap(db.users, DbBalance)
  }

  /** A run of `add_user_if_not_exists` calls, one per (user, referrer, time) in order. */
  function AddUsersIfNotExist(db: Db, calls: seq<(int, Option<int>, int)>): Db
    decreases |calls|
  {
    if calls == [] then db
    else AddUsersIfNotExist(AddUserIfNotExists(db, calls[0].0, calls[0].1, calls[0].2), calls[1..])
  }

  /**
   * First writer wins: once a user's referrer is set, no later
   * `add_user_if_not_exists` changes it, nor that user's balance or level.
   */
  lemma {:induction false} ReferrerSticks(db: Db, uid: int, r: int, calls: seq<(int, Option<int>, int)>)
    requires uid in db.users && db.users[uid].referrerId == Some(r)
    ensures var db' := AddUsersIfNotExist(db, calls);
      && uid in db'.users
      && db'.users[uid].referrerId == Some(r)
      && db'.users[uid].balance == db.users[uid].balance
      && db'.users[uid].level == db.users[uid].level
    decreases |calls|
  {
    if calls != [] {
      var db1 := AddUserIfNotExists(db, calls[0].0, calls[0].1, calls[0].2);
      ReferrerSticks(db1, uid, r, calls[1..]);
    }
  }

  /** Registering users never changes the sum of balances: new users start at 0. */
  lemma AddUserKeepsTotal(db: Db, uid: int, referrerId: Option<int>, now: int)
    ensures DbTotal(AddUserIfNotExists(db, uid, referrerId, now)) == DbTotal(db)
  {
    var db' := AddUserIfNotExists(db, uid, referrerId, now);
    Sums.SumMapUpdate(db.users, DbBalance, uid, db'.users[uid]);
  }

  /** `increment_balance` moves the sum of balances by exactly `delta` for a known user, else not at all. */
  lemma IncrementBalanceTotal(db: Db, uid: int, delta: int)
    ensures DbTotal(IncrementBalance(db, uid, delta)) == DbTotal(db) + (if uid in db.users then delta else 0)
  {
    if uid in db.users {
      var db' := IncrementBalance(db, uid, delta);
      assert db'.users == db.users[uid := db'.users[uid]];
      Sums.SumMapUpdate(db.users, DbBalance, uid, db'.users[uid]);
    }
  }

  /** Increments add up; the last `update_level` wins; the two setters touch different columns and commute. */
  lemma SettersCompose(db: Db, uid: int, a: int, b: int, l1: int, l2: int)
    ensures IncrementBalance(IncrementBalance(db, uid, a), uid, b) == IncrementBalance(db, uid, a + b)
    ensures UpdateLevel(UpdateLevel(db, uid, l1), uid, l2) == UpdateLevel(db, uid, l2)
    ensures UpdateLevel(IncrementBalance(db, uid, a), uid, l1) == IncrementBalance(UpdateLevel(db, uid, l1), uid, a)
  {
  }

  /** The user and task operations keep the store's integrity. */
  lemma StoreOpsValid(db: Db, uid: int, referrerId: Option<int>, delta: int, level: int, now: int,
                      kind: string, title: string, description: string, reward: int, payload: string, createdBy: Option<int>)
    requires DbValid(db)
    ensures DbValid(AddUserIfNotExists(db, uid, referrerId, now))
    ensures DbValid(IncrementBalance(db, uid, delta))
    ensures DbValid(UpdateLevel(db, uid, level))
    ensures var r := CreateTask(db, kind, title, description, reward, payload, createdBy, now);
      DbValid(r.0) && r.1 !in db.tasks
  {
  }
}

=== FILE: db_watches.dfy ===
/**
 * Subscription watches: rows scheduled under a fresh AUTOINCREMENT id,
 * read back by id or all together, and deleted by id.
 */
module DbWatches {
  import opened Wrappers
  import opened DbStore

  /** `schedule_subscription_watch`: stores the watch under a fresh id and returns that id. */
  function ScheduleWatch(db: Db, userId: int, chatId: string, reward: int, taskId: int, dueAt: int, stage: string): (r: (Db, int))
    ensures DbValid(db) ==> r.1 !in db.watches
    ensures r.1 in r.0.watches && r.0.watches[r.1] == Watch(userId, chatId, reward, taskId, dueAt, stage)
    ensures r.0.watches - {r.1} == db.watches - {r.1}
    ensures r.0.nextWatchId > r.1
    ensures r.0.(watches := db.watches, nextWatchId := db.nextWatchId) == db
  {
    var id := db.nextWatchId;
    (db.(watches := db.watches[id := Watch(userId, chatId, reward, taskId, dueAt, stage)], nextWatchId := id + 1), id)
  }

  /** `delete_subscription_watch`: removes the row if present; an absent id is a no-op. */
  function DeleteWatch(db: Db, id: int): (db': Db)
    ensures id !in db'.watches
    ensures db'.watches == db.watches - {id}
    ensures id !in db.watches ==> db' == db
    ensures db'.(watches := db.watches) == db
  {
    db.(watches := db.watches - {id})
  }

  /** `get_subscription_watch`: the row under `id`, if any. */
  function GetWatch(db: Db, id: int): (r: Option<Watch>)
    ensures r.Some? <==> id in db.watches
    ensures r.Some? ==> r.value == db.watches[id]
  {
    if id in db.watches then Some(db.watches[id]) else None
  }

  /** `list_subscription_watches`: every row with its id; the query fixes no order, so the model returns a set. */
  function ListWatches(db: Db): (rows: set<(int, Watch)>)
    ensures forall id, w :: (id, w) in rows <==> id in db.watches && db.watches[id] == w
  {
    set id | id in db.watches :: (id, db.watches[id])
  }

  /** After a delete, the watch can no longer be read back, by id or in the listing. */
  lemma DeletedIsGone(db: Db, id: int)
    ensures var db' := DeleteWatch(db, id);
      && GetWatch(db', id) == None
      && (forall w :: (id, w) !in ListWatches(db'))
      && (forall j :: j != id ==> GetWatch(db', j) == GetWatch(db, j))
  {
  }

  /** A scheduled watch reads back as stored; deleting it restores the table (the id counter stays advanced). */
  lemma ScheduleThenDelete(db: Db, userId: int, chatId: string, reward: int, taskId: int, dueAt: int, stage: string)
    requires DbValid(db)
    ensures var (db1, id) := ScheduleWatch(db, userId, chatId, reward, taskId, dueAt, stage);
      && GetWatch(db1, id) == Some(Watch(userId, chatId, reward, taskId, dueAt, stage))
      && DeleteWatch(db1, id).watches == db.watches
      && DbValid(db1)
      && DbValid(DeleteWatch(db1, id))
  {
    var (db1, id) := ScheduleWatch(db, userId, chatId, reward, taskId, dueAt, stage);
    assert id !in db.watches;
    assert db1.watches - {id} == db.watches;
  }

  /** Ids are never reused: a watch scheduled after a delete gets an id no earlier watch had. */
  lemma IdsNotReused(db: Db, id: int, userId: int, chatId: string, reward: int, taskId: int, dueAt: int, stage: string)
    requires DbValid(db)
    ensures var newId := ScheduleWatch(DeleteWatch(db, id), userId, chatId, reward, taskId, dueAt, stage).1;
      && (forall j :: j in db.watches ==> j < newId)
      && (id < db.nextWatchId ==> newId != id)
  {
  }
}

=== FILE: sums.dfy ===
/**
 * Sums over the rows of a table: `SUM(col)` of SQL, written as the sum of
 * `f(row)` over the values a map holds. The order of summation is not
 * fixed; `SumKeysRemove` shows that any row may be taken out first.
 */
module Sums {

  ghost function SumKeys<K, V>(m: map<K, V>, f: V -> int, keys: set<K>): int
    requires keys <= m.Keys
    decreases keys
  {
    if keys == {} then 0
    else
      var k :| k in keys;
      f(m[k]) + SumKeys(m, f, keys - {k})
  }

  /** Some element of a non-empty set. */
  method Pick<K>(s: set<K>) returns (k: K)
    requires s != {}
    ensures k in s
  {
    k :| k in s;
  }

  /** Sum of `f` over every row of `m`; 0 for an empty table. */
  ghost function SumMap<K, V>(m: map<K, V>, f: V -> int): int {
    SumKeys(m, f, m.Keys)
  }

  /** Any key may be split off a sum first. */
  lemma {:induction false} SumKeysRemove<K, V>(m: map<K, V>, f: V -> int, keys: set<K>, k: K)
    requires keys <= m.Keys && k in keys
    ensures SumKeys(m, f, keys) == f(m[k]) + SumKeys(m, f, keys - {k})
    decreases keys
  {
    var j :| j in keys && SumKeys(m, f, keys) == f(m[j]) + SumKeys(m, f, keys - {j});
    if j != k {
      SumKeysRemove(m, f, keys - {j}, k);
      SumKeysRemove(m, f, keys - {k}, j);
      assert keys - {j} - {k} == keys - {k} - {j};
    }
  }

  /** Two tables that agree (under `f`) on `keys` have the same sum over `keys`. */
  lemma {:induction false} SumKeysAgree<K, V>(m1: map<K, V>, m2: map<K, V>, f: V -> int, keys: set<K>)
    requires keys <= m1.Keys && keys <= m2.Keys
    requires forall k :: k in keys ==> f(m1[k]) == f(m2[k])
    ensures SumKeys(m1, f, keys) == SumKeys(m2, f, keys)
    decreases keys
  {
    if keys != {} {
      var k :| k in keys;
      SumKeysRemove(m1, f, keys, k);
      SumKeysRemove(m2, f, keys, k);
      SumKeysAgree(m1, m2, f, keys - {k});
    }
  }

  /** Writing row `k` changes the sum by the new value minus the old one (0 for a fresh row). */
  lemma SumMapUpdate<K, V>(m: map<K, V>, f: V -> int, k: K, v: V)
    ensures SumMap(m[k := v], f) == SumMap(m, f) - (if k in m then f(m[k]) else 0) + f(v)
  {
    var m' := m[k := v];
    SumKeysRemove(m', f, m'.Keys, k);
    if k in m {
      SumKeysRemove(m, f, m.Keys, k);
    } else {
      assert m.Keys - {k} == m.Keys;
    }
    assert m'.Keys - {k} == m.Keys - {k};
    SumKeysAgree(m, m', f, m.Keys - {k});
  }

  /** A subset is no larger than its superset. */
  lemma {:induction false} CardinalitySubset<T>(a: set<T>, b: set<T>)
    requires a <= b
    ensures |a| <= |b|
    decreases a
  {
    if a != {} {
      var x :| x in a;
      CardinalitySubset(a - {x}, b - {x});
    }
  }
}

=== FILE: text.dfy ===
/**
 * The few string operations the ledger relies on: ASCII decimal digits
 * (`str.isdigit`, `int`, `str`), ASCII case mapping (`str.upper`,
 * `str.lower`) and whitespace trimming (`str.strip`).
 */
module Text {

  predicate IsDigit(c: char) {
    '0' <= c <= '9'
  }

  predicate AllDigits(s: string) {
    forall i :: 0 <= i < |s| ==> IsDigit(s[i])
  }

  /** Python's `str.isdigit` on ASCII text: non-empty and made of digits only. */
  predicate IsDigits(s: string) {
    |s| > 0 && AllDigits(s)
  }

  function DigitChar(d: nat): (c: char)
    requires d < 10
    ensures IsDigit(c)
    ensures c as int - '0' as int == d
  {
    ('0' as int + d) as char
  }

  /** The number a digit string denotes, as Python's `int` reads it (leading zeros allowed). */
  function DigitsValue(s: string): nat
    requires AllDigits(s)
    decreases |s|
  {
    if s == [] then 0
    else 10 * DigitsValue(s[..|s| - 1]) + (s[|s| - 1] as int - '0' as int)
  }

  /** Decimal rendering of a natural number, as Python's `str` writes it. */
  function ShowNat(n: nat): (s: string)
    ensures IsDigits(s)
    ensures |s| > 1 ==> s[0] != '0'
    decreases n
  {
    if n < 10 then [DigitChar(n)]
    else ShowNat(n / 10) + [DigitChar(n % 10)]
  }

  /** Decimal rendering of any integer, with a leading minus sign when negative. */
  function ShowInt(n: int): (s: string)
    ensures |s| > 0
    ensures n < 0 <==> s[0] == '-'
  {
    if n < 0 then "-" + ShowNat(-n) else ShowNat(n)
  }

  /** Reading back what `ShowNat` wrote gives the number again. */
  lemma {:induction false} ShowNatRoundTrip(n: nat)
    ensures DigitsValue(ShowNat(n)) == n
    decreases n
  {
    if n >= 10 {
      var p := ShowNat(n / 10);
      var s := p + [DigitChar(n % 10)];
      assert s[..|s| - 1] == p;
      ShowNatRoundTrip(n / 10);
    }
  }

  function UpperChar(c: char): char {
    if 'a' <= c <= 'z' then (c as int - 32) as char else c
  }

  function LowerChar(c: char): char {
    if 'A' <= c <= 'Z' then (c as int + 32) as char else c
  }

  /** ASCII `str.upper`: same length, every letter capitalised. */
  function Upper(s: string): (r: string)
    ensures |r| == |s|
    ensures forall i :: 0 <= i < |s| ==> r[i] == UpperChar(s[i])
    decreases |s|
  {
    if s == [] then [] else [UpperChar(s[0])] + Upper(s[1..])
  }

  /** ASCII `str.lower`: same length, every letter in lower case. */
  function Lower(s: string): (r: string)
    ensures |r| == |s|
    ensures forall i :: 0 <= i < |s| ==> r[i] == LowerChar(s[i])
    decreases |s|
  {
    if s == [] then [] else [LowerChar(s[0])] + Lower(s[1..])
  }

  /** Upper-casing twice is upper-casing once: a stored upper-case key is its own normal form. */
  lemma UpperIdempotent(s: string)
    ensures Upper(Upper(s)) == Upper(s)
  {
    var u := Upper(s);
    assert forall i :: 0 <= i < |u| ==> Upper(u)[i] == u[i];
  }

  /** Python's `str.isspace` restricted to ASCII: space, `\t` to `\r`, and `\x1c` to `\x1f`. */
  predicate IsSpace(c: char) {
    c == ' ' || 9 <= c as int <= 13 || 28 <= c as int <= 31
  }

  /** `str.lstrip()`: drops the leading whitespace and nothing else. */
  function StripLeft(s: string): (r: string)
    ensures |r| <= |s| && r == s[|s| - |r|..]
    ensures forall i :: 0 <= i < |s| - |r| ==> IsSpace(s[i])
    ensures r == [] || !IsSpace(r[0])
    decreases |s|
  {
    if s != [] && IsSpace(s[0]) then StripLeft(s[1..]) else s
  }

  /** `str.rstrip()`: drops the trailing whitespace and nothing else. */
  function StripRight(s: string): (r: string)
    ensures |r| <= |s| && r == s[..|r|]
    ensures forall i :: |r| <= i < |s| ==> IsSpace(s[i])
    ensures r == [] || !IsSpace(r[|r| - 1])
    decreases |s|
  {
    if s != [] && IsSpace(s[|s| - 1]) then StripRight(s[..|s| - 1]) else s
  }

  /** `str.strip()`: trims whitespace at both ends. */
  function Strip(s: string): (r: string)
    ensures r == [] || (!IsSpace(r[0]) && !IsSpace(r[|r| - 1]))
    ensures (forall i :: 0 <= i < |s| ==> IsSpace(s[i])) <==> r == []
  {
    StripRight(StripLeft(s))
  }

  /** Whitespace in front of a string that `lstrip` keeps something of is dropped, and the tail kept. */
  lemma {:induction false} StripLeftAppend(s: string, t: string)
    requires StripLeft(s) != []
    ensures StripLeft(s + t) == StripLeft(s) + t
    decreases |s|
  {
    assert (s + t)[0] == s[0];
    if IsSpace(s[0]) {
      assert (s + t)[1..] == s[1..] + t;
      StripLeftAppend(s[1..], t);
    }
  }

  /** Leading whitespace makes no difference to `lstrip`. */
  lemma {:induction false} StripLeftPadded(pre: string, s: string)
    requires forall i :: 0 <= i < |pre| ==> IsSpace(pre[i])
    ensures StripLeft(pre + s) == StripLeft(s)
    decreases |pre|
  {
    if pre == [] {
      assert pre + s == s;
    } else {
      assert (pre + s)[0] == pre[0];
      assert (pre + s)[1..] == pre[1..] + s;
      StripLeftPadded(pre[1..], s);
    }
  }

  /** Trailing whitespace makes no difference to `rstrip`. */
  lemma {:induction false} StripRightPadded(s: string, post: string)
    requires forall i :: 0 <= i < |post| ==> IsSpace(post[i])
    ensures StripRight(s + post) == StripRight(s)
    decreases |post|
  {
    if post == [] {
      assert s + post == s;
    } else {
      var t := s + post;
      assert t[|t| - 1] == post[|post| - 1];
      assert t[..|t| - 1] == s + post[..|post| - 1];
      StripRightPadded(s, post[..|post| - 1]);
    }
  }

  /** A string with no whitespace at either end is its own `strip()`. */
  lemma StripUnpadded(s: string)
    requires s == [] || (!IsSpace(s[0]) && !IsSpace(s[|s| - 1]))
    ensures Strip(s) == s
  {
  }

  /**
   * `strip()` returns exactly the core of a string: whatever is left
   * between leading and trailing whitespace, when that core has no
   * whitespace at either end. Every string splits this way, so this
   * pins `Strip` down completely.
   */
  lemma StripExact(pre: string, core: string, post: string)
    requires forall i :: 0 <= i < |pre| ==> IsSpace(pre[i])
    requires forall i :: 0 <= i < |post| ==> IsSpace(post[i])
    requires core == [] || (!IsSpace(core[0]) && !IsSpace(core[|core| - 1]))
    ensures Strip(pre + core + post) == core
  {
    StripPadded(pre, core, post);
    StripUnpadded(core);
  }

  /** Strings that differ only in surrounding whitespace strip to the same text. */
  lemma StripPadded(pre: string, s: string, post: string)
    requires forall i :: 0 <= i < |pre| ==> IsSpace(pre[i])
    requires forall i :: 0 <= i < |post| ==> IsSpace(post[i])
    ensures Strip(pre + s + post) == Strip(s)
  {
    var t := pre + s + post;
    assert t == pre + (s + post);
    StripLeftPadded(pre, s + post);
    if StripLeft(s) == [] {
      assert forall i :: 0 <= i < |s| ==> IsSpace(s[i]);
      assert forall i :: 0 <= i < |t| ==> IsSpace(t[i]) by {
        forall i | 0 <= i < |t|
          ensures IsSpace(t[i])
        {
          if i < |pre| { assert t[i] == pre[i]; }
          else if i < |pre| + |s| { assert t[i] == s[i - |pre|]; }
          else { assert t[i] == post[i - |pre| - |s|]; }
        }
      }
    } else {
      StripLeftAppend(s, post);
      StripRightPadded(StripLeft(s), post);
    }
  }
}

=== FILE: wrappers.dfy ===
/** Optional values, standing for Python's `None`-able columns and arguments. */
module Wrappers {

  datatype Option<+T> = None | Some(value: T)

  /** Python truthiness of an `Optional[int]`: neither `None` nor `0`. */
  predicate Truthy(x: Option<int>) {
    x.Some? && x.value != 0
  }
}
